=== FILE: README.md ===
# Payroll report tool: a verified model

The tool reads employee records from one or more CSV files and prints a
report. Today the only report is `payout`: one line per employee with the
name and department padded into columns, then a line with the total pay.
This project models in Dafny the three parts of the tool and proves what
each part promises.

- **Reading and collecting** (`main.py`), in module `Ingestion` (`main.dfy`).
  - `read_csv_file` takes the first line as the header. It then splits every
    other line on commas, checks that the line has the header's width, and
    pairs the fields with the header names.
  - `main` first checks the report name. It then turns every row of every
    file, in order, into an employee. The first failure ends the run.
- **The employee record** (`employee.py`), in module `Employees`
  (`employee.dfy`). Construction rejects negative hours and then a negative
  rate. The payout is hours times rate.
- **The report** (`report.py`), in module `Reports` (`report.dfy`).
  - `PayoutReport.generate` builds the lines in a loop while it adds up the
    total.
  - `generate_report` looks the name up in the `REPORTS` registry.

Two support modules hold the rest:

- `Text` (`text.dfy`) models the Python string operations the tool uses.
  These are `strip`, `split`, `join`, left-justified padding, `int()`, the
  decimal forms of `float()` and the `:.0f` format. `int()` and `float()`
  trim every character `strip` removes except the information separators
  U+001C to U+001F, which make them fail; the model refuses a text that
  holds one and strips the rest.
- `Wrappers` (`wrappers.dfy`) holds `Option`, `Result` and a first-failure
  traversal. The traversal has the shape of a Python loop that appends to
  a list and stops at the first exception.

Inputs and outputs become values:

- A file is its path and its list of lines. A line may keep its terminator:
  `strip` removes it before the split, so the fields are the same either way.
- Every `print` followed by `sys.exit(1)` becomes an `Err` value of
  `Ingestion.Failure`.
- The report text is the returned string.

The loops of `read_csv_file` and `main` (`Ingestion.ReadCsvFile`,
`Ingestion.AppendEmployees`, `Ingestion.RunPayroll`) and `PayoutReport.generate`
(`Reports.GeneratePayout`) are methods. Each is proved equal to a function
that states the result outright. The properties are proved about those
functions.

## Model

| member | source | states |
|---|---|---|
| Text.IsWhitespace | main.py:17 | the characters `str.isspace()` accepts, which `strip()` removes; no contract of its own, see Text.TrimStart, Text.TrimEnd and the Strip lemmas |
| Text.TrimStart | main.py:17 | the result is a suffix of the input; everything removed is whitespace; the result does not start with whitespace |
| Text.TrimEnd | main.py:17 | the result is a prefix of the input; everything removed is whitespace; the result does not end with whitespace |
| Text.Strip | main.py:17 | `str.strip()`, defined as TrimStart followed by TrimEnd; it has no contract of its own, and the three lemmas below characterise it |
| Text.StripSlice | main.py:17 | the stripped text is the slice of the line that starts right after its leading whitespace |
| Text.StripRemovesWhitespace | main.py:17 | everything strip removes, before and after the kept slice, is whitespace |
| Text.StripEnds | main.py:21 | a non-empty stripped text neither starts nor ends with whitespace |
| Text.StripBlank | main.py:21 | a line made only of whitespace, such as an empty trailing line, strips to "" |
| Text.StripUnchanged | main.py:17 | a string with no whitespace at either end is not changed by strip |
| Text.Split | main.py:21 | a string with k separators splits into k + 1 pieces, never zero, and no piece contains the separator |
| Text.JoinSplit | main.py:21 | joining the pieces of a split with the separator gives back the original string, so no character is lost |
| Text.SplitNoSeparator | main.py:21 | a string without the separator splits into itself alone |
| Text.SplitAfterPiece | main.py:21 | a piece with no separator in it, followed by the separator, splits off as the first piece |
| Text.SplitJoin | report.py:40 | splitting a join of separator-free pieces gives back the same pieces |
| Text.Join | report.py:40 | `sep.join(pieces)`; no contract of its own: Text.JoinOccurrences counts its separators and Text.JoinSplit is its round trip with split |
| Text.JoinOccurrences | report.py:40 | pieces free of the separator are joined with exactly one separator fewer than there are pieces, so n + 1 report lines hold n newlines |
| Text.PadRight | report.py:34-35 | the padded field has the given width, or the text's length if that is larger; it starts with the text; the rest is spaces; the text is never cut |
| Text.MaxLength | report.py:28-29 | the result is at least every string's length and equals the length of one of them |
| Text.NatToString | report.py:36 | str(n) is a non-empty run of digits with no leading zero |
| Text.NatToStringValue | report.py:36 | the digits of str(n) read back as n |
| Text.IntToString | main.py:55 | `str(i)`: a run of digits whose value is the magnitude of i, after a minus sign exactly when i is negative |
| Text.ParseInt | main.py:55 | `int(text)`: a result needs non-blank text with no information separator (U+001C to U+001F, which `int()` does not trim), and a negative result needs an explicit minus sign; Text.ParseIntToString is its round trip with str() |
| Text.IsInformationSeparator | main.py:55-60 | the characters U+001C to U+001F, which `str.isspace()` accepts but `int()` and `float()` do not trim; no contract of its own, see Text.HasInformationSeparator |
| Text.HasInformationSeparator | main.py:55-60 | a text holding such a character, which `int()` and `float()` refuse; no contract of its own, see Text.ParseInt, Text.ParseReal and Text.InformationSeparatorRefused |
| Text.ParseIntToString | main.py:55 | int(str(i)) == i for every integer i |
| Text.ParseIntToStringNegative | main.py:55 | int(str(i)) == i for every negative i |
| Text.ParseIntToStringNatural | main.py:55 | int(str(i)) == i for every non-negative i |
| Text.ParseIntDigits | main.py:55 | int() of a run of digits is its value |
| Text.ParseIntNegative | main.py:55 | int() of a minus sign followed by the digits of n is -n |
| Text.ParseIntSigned | main.py:55 | int() of a minus sign followed by digits is the negated value of the digits |
| Text.InformationSeparatorRefused | main.py:55-60 | int() and float() refuse a number padded with an information separator, such as "\x1c160" |
| Text.StripDigits | main.py:55 | a run of digits has no surrounding whitespace, so strip leaves it unchanged |
| Text.StripSigned | main.py:55 | a minus sign followed by digits is unchanged by strip |
| Text.ParseReal | main.py:59-60 | the decimal forms of `float(text)`: a text with an information separator (U+001C to U+001F, which `float()` does not trim) is refused, and a negative value needs an explicit minus sign; the value is the exact decimal (see "## Left out") |
| Text.ParseDecimal | main.py:59-60 | an unsigned decimal, digits with at most one point, never has a negative value |
| Text.ParseDecimalDigits | main.py:59-60 | a run of digits without a decimal point reads as a whole number |
| Text.ParseRealDigits | main.py:59-60 | in the model, float() of a run of digits is exactly its integer value (a double rounds above 2^53; see "## Left out") |
| Text.ParseRealOfNat | main.py:59-60 | in the model, float(str(n)) == n for every natural n (a double rounds above 2^53; see "## Left out") |
| Text.RoundHalfEven | report.py:36 | the result is within 0.5 of x, and on a tie it is the even neighbour |
| Text.FormatFixed0 | report.py:36 | the `:.0f` text is non-empty and holds only digits and a minus sign |
| Text.FormatValue | report.py:39 | the printed amount is the rounded value; a minus sign appears exactly when the value is negative |
| Text.FormatWhole | report.py:36 | a whole amount prints as its integer digits, for example 8000.0 as "8000" |
| Employees.NewEmployee | employee.py:14-19 | every record that is built satisfies the invariant hours >= 0 and rate >= 0 |
| Employees.Employee | employee.py:4-12 | the dataclass: id, email, name, department, hours worked and hourly rate; a datatype with no contract, whose invariant is Employees.Valid |
| Employees.Valid | employee.py:14-19 | the invariant `__post_init__` enforces, hours >= 0 and rate >= 0; a predicate with no contract, established by Employees.NewEmployee |
| Employees.Payout | employee.py:21-23 | `calculate_payout`, hours times rate in exact arithmetic; it has no contract of its own, and Employees.PayoutNonNegative and Employees.PayoutExamples state its properties |
| Employees.NewEmployeeSucceeds | employee.py:14-19 | construction succeeds exactly when hours >= 0 and rate >= 0, so zero is allowed; all six fields are kept as given, with no check on id, email, name or department |
| Employees.NewEmployeeFailures | employee.py:16-19 | negative hours fail as NegativeHours whatever the rate; negative rate fails as NegativeRate only when the hours are valid |
| Employees.PayoutNonNegative | employee.py:21-23 | the payout of a built employee is >= 0, and it is 0 when either factor is 0 |
| Employees.PayoutExamples | tests/test_employee.py:5-12 | 160×50 = 8000, 150×40 = 6000 and 170×60 = 10200 |
| Employees.RejectionExamples | tests/test_employee.py:15-21 | (-10, 40) is rejected for hours and (160, -50) for rate |
| Reports.Lookup | report.py:44-46 | a name is found exactly when some entry has it, and the kind returned is registered under that name |
| Reports.LookupRegistry | report.py:44-46 | "payout" is the only registered name; any other name is not found |
| Reports.ReportNames | main.py:45 | `list(REPORTS.keys())` holds exactly the names that can be looked up in the registry `Reports.Registry` (report.py:44-46) |
| Reports.NameWidth | report.py:28 | every name fits in the name width, and the longest name fills it exactly |
| Reports.DepartmentWidth | report.py:29 | every department fits in the department width, and the longest department fills it exactly |
| Reports.Line | report.py:36 | a line is as long as its three labels, plus the name and department padded to their widths (never shorter than the texts), plus the amount |
| Reports.PayoutLine | report.py:34-36 | one employee's line, with its payout formatted by `:.0f`; defined through Reports.Line, with its layout given by Reports.LineColumns |
| Reports.TotalLine | report.py:39 | "Total payout: $" followed by the formatted total; no contract of its own, see Reports.TotalLineNoNewline and Text.FormatValue |
| Reports.TotalPayout | report.py:32-33 | the running total, summed in list order; no contract of its own, see Reports.TotalPayoutAppend and Reports.TotalPayoutNonNegative |
| Reports.EmployeeLines | report.py:31-37 | one line per employee |
| Reports.EmployeeLinesAt | report.py:31-37 | line k is employee k's line, in input order |
| Reports.EmployeeLinesStep | report.py:31-37 | each pass of the loop appends one employee's line and adds its payout to the running total |
| Reports.PayoutLines | report.py:31-39 | a report for n employees has n + 1 lines |
| Reports.PayoutText | report.py:22-40 | the text `generate` returns; no contract of its own: Reports.GeneratePayout is proved equal to it, and Reports.ReportLines, Reports.PayoutLineAt and Reports.EmptyReport state what it holds |
| Reports.Generate | report.py:16 | `Report.generate`, dispatched on the report kind; the payout kind gives Reports.PayoutText |
| Reports.GenerateReport | report.py:48-52 | `generate_report`: the registry lookup, then `generate`; its behaviour for every name is Reports.GenerateReportDispatch |
| Reports.GeneratePayout | report.py:22-40 | `generate` returns exactly the specified report text: "Total payout: $0" for no employees, and otherwise the employee lines and the total line joined by "\n" |
| Reports.LineFromFields | report.py:34-36 | the line `generate` builds from the padded fields and the formatted payout is the employee's report line |
| Reports.PayoutLineAt | report.py:28-39 | line k of the report is employee k's line, padded to widths that its name and department fit in; the last line is the total of all payouts |
| Reports.GenerateReportDispatch | report.py:48-52 | generate_report fails for every name except "payout", which gives the payout report |
| Reports.EmptyReport | report.py:25-26 | no employees gives exactly "Total payout: $0", which is also the total line of a zero total |
| Reports.TotalPayoutAppend | report.py:32-33 | the running total over two lists joined end to end is the sum of their totals |
| Reports.TotalPayoutNonNegative | report.py:39 | the total of valid employees is never negative |
| Reports.LabelledField | report.py:34-36 | a heading plus a padded field is the heading, then the text, then only spaces, and has the heading's length plus the width |
| Reports.LineLayout | report.py:36 | the department column starts at 10 + nameWidth and the payout column at 26 + nameWidth + departmentWidth, on every line |
| Reports.LineColumns | report.py:34-36 | each line, character range by character range: label, name, spaces, department label, department, spaces, payout label, amount |
| Reports.NameColumnAt | report.py:34 | the name sits at columns 10 .. 10 + its length, then spaces fill up to the department label |
| Reports.DepartmentColumnAt | report.py:35-36 | "    Department: " starts at 10 + nameWidth, then the department, then spaces up to the payout label |
| Reports.PayoutColumnAt | report.py:36 | "    Payout: $" starts at 26 + nameWidth + departmentWidth and the amount follows it to the end of the line |
| Reports.NotInColumn | report.py:34-35 | padding adds only spaces |
| Reports.NoNewlineInLine | report.py:36 | a line built from pieces without a newline has none |
| Reports.PayoutLineNoNewline | report.py:36 | an employee's line has no newline when its name and department have none |
| Reports.TotalLineNoNewline | report.py:39 | the total line has no newline |
| Reports.ReportLineNoNewline | report.py:31-39 | no report line has a newline when no name or department has one |
| Reports.ReportLines | report.py:31-40 | the report text splits on "\n" back into exactly n + 1 lines: the employee lines in order, then the total |
| Reports.SampleAmounts | tests/test_report.py:16-20 | 8000, 6000 and 14000 print as "8000", "6000" and "14000" |
| Reports.SampleLineAlice | tests/test_report.py:17 | Alice's line, as the test expects it |
| Reports.SampleLineBob | tests/test_report.py:18 | Bob's line, padded to Alice's longer name and department, as the test expects it |
| Reports.SampleTotalLine | tests/test_report.py:19 | the total line of the test batch |
| Reports.SampleWidthsAndTotal | tests/test_report.py:9-10 | the test batch is padded to widths 13 and 9, and its total is 14000 |
| Reports.SampleLines | tests/test_report.py:16-20 | the three lines of the test batch's report |
| Reports.SampleReport | tests/test_report.py:14-26 | generate_report("payout", ...) gives the test's expected text for the sample batch, and "Total payout: $0" for no employees |
| Ingestion.Fields | main.py:17-21 | `line.strip().split(',')`; no contract of its own, see Ingestion.FieldsRoundTrip and Text.Split |
| Ingestion.HeaderLine | main.py:17 | what `readline()` returns: the first line, or "" for an empty file; no contract of its own, see Ingestion.EmptyFileReads |
| Ingestion.Headers | main.py:17 | the header names, the fields of the header line; no contract of its own, see Ingestion.ParseCsvRows |
| Ingestion.DataLines | main.py:20 | the lines `for line in f` visits after the header, in file order; no contract of its own, see Ingestion.ParseCsvRows |
| Ingestion.SameWidth | main.py:22 | every data line has as many fields as the header; no contract of its own, see Ingestion.SameWidthStep and Ingestion.ParseCsvFails |
| Ingestion.ZipMap | main.py:24 | `dict(zip(headers, values))`, built left to right; no contract of its own, see Ingestion.ZipMapKeys and Ingestion.ZipMapValue |
| Ingestion.ZipMapKeys | main.py:24 | the row's keys are exactly the header names that have a value to pair with |
| Ingestion.ZipMapValue | main.py:24 | each header name maps to the value in its own column when no later column repeats the name, so the later column wins |
| Ingestion.Rows | main.py:20-25 | one map per data line, in file order, each pairing the header with that line's fields |
| Ingestion.SameWidthStep | main.py:22 | one more line of the header's width keeps the checked prefix of the header's width |
| Ingestion.RowsStep | main.py:24-25 | each pass of the loop appends the row of the line it read |
| Ingestion.ParseCsv | main.py:13-26 | what `read_csv_file` returns; no contract of its own: Ingestion.ReadCsvFile is proved equal to it, and Ingestion.ParseCsvFails and Ingestion.ParseCsvRows state what it holds |
| Ingestion.ReadCsvFile | main.py:13-26 | `read_csv_file` returns exactly what ParseCsv specifies: a failure naming the file, or one row per data line |
| Ingestion.ParseCsvFails | main.py:22-23 | the read fails exactly when some data line's field count differs from the header's, and the failure names only the file |
| Ingestion.ParseCsvRows | main.py:20-25 | on success there is one row per data line, in file order: row k is `dict(zip(headers, values))` of line k + 1, that line has as many fields as the header, and the row's keys are the header names |
| Ingestion.ParseCsvValue | main.py:24 | on success a header name that no later column repeats maps to its own column's value in every row |
| Ingestion.BlankLineFails | main.py:21-22 | a blank data line fails the read unless the header has exactly one column |
| Ingestion.EmptyFileReads | main.py:17 | an empty file reads as no rows |
| Ingestion.FieldsRoundTrip | main.py:17 | a line's fields joined by commas give back the stripped line, with one more field than there are commas |
| Ingestion.TextField | main.py:56-58 | `data[key]`: the text, or a KeyError naming the key; no contract of its own, see Ingestion.TextFieldsNotValidated |
| Ingestion.IntField | main.py:55 | `int(data[key])`: a KeyError naming the key, a ValueError naming the text, or the integer; no contract of its own, see Ingestion.BuildEmployeeSucceeds |
| Ingestion.RealField | main.py:59-60 | `float(data[key])`: a KeyError naming the key, a ValueError naming the text, or the number; no contract of its own, see Ingestion.BuildEmployeeSucceeds |
| Ingestion.BuildEmployee | main.py:54-61 | the `Employee(...)` call of `main`, with its arguments converted left to right, so the first missing or malformed field is the one reported; no contract of its own, see Ingestion.BuildEmployeeFields and the lemmas after it |
| Ingestion.BuildEmployeeFields | main.py:54-61 | a row builds exactly when all six keys are present, the three numbers convert and neither hours nor rate is negative; the employee then carries the converted fields |
| Ingestion.BuildEmployeeSucceeds | main.py:54-61 | the same condition, stated with int() and float() of the row's text |
| Ingestion.FieldsAgree | main.py:55-60 | rows that agree on the six keys convert them in the same way |
| Ingestion.ExtraColumnsIgnored | main.py:54-61 | columns other than the six are never read: rows that agree on the six keys build the same employee or fail the same way |
| Ingestion.TextFieldsNotValidated | main.py:56-58 | any text in the email, name and department columns of a good row is accepted as it is |
| Ingestion.RowEmployee | main.py:53-65 | one row: the `Employee(...)` call, with a failure tagged with the file's path as the `except` clause reports it; no contract of its own, see Ingestion.FileFailsAtRow |
| Ingestion.FileEmployees | main.py:51-65 | one file: `read_csv_file`, then each row built in order, stopping at the first failure; no contract of its own, see the lemmas below |
| Ingestion.Collect | main.py:49-65 | `all_employees`: every file in argument order, stopping at the first failing file; no contract of its own, see Ingestion.CollectAll, Ingestion.CollectFailsAtFile and Ingestion.CollectSucceeds |
| Ingestion.Flatten | main.py:49-62 | `all_employees`: each file's employees appended after the earlier files'; no contract of its own, see Ingestion.FlattenAppend and Ingestion.CollectAll |
| Ingestion.FileEmployeesOf | main.py:51-52 | a file that reads successfully yields its rows' employees |
| Ingestion.FileEmployeesRows | main.py:52-62 | a file's employees correspond one to one, in row order, to its rows |
| Ingestion.FileFailsAtRow | main.py:53-65 | the first row that cannot be built fails the file, with that row's cause and the file's path |
| Ingestion.CollectAll | main.py:49-62 | when every file succeeds, the employees are each file's employees, in argument order |
| Ingestion.CollectFailsAtFile | main.py:50-65 | the first failing file ends the run with its failure, and nothing collected before it is kept |
| Ingestion.CollectSucceeds | main.py:49-65 | the collection succeeds exactly when every file does |
| Ingestion.FlattenAppend | main.py:62 | one more file's employees are appended after the ones already collected |
| Ingestion.AppendEmployees | main.py:52-65 | the inner loop appends the file's employees after those already collected, or returns the first row's failure |
| Ingestion.RunPayroll | main.py:43-69 | the run returns exactly what Run specifies: the name check first, then every file in turn, then the report |
| Ingestion.Run | main.py:43-69 | `main` with the report call corrected to `generate`: the name check, then the collection, then the report; no contract of its own, see Ingestion.RunSucceeds and Ingestion.UnknownReportFirst |
| Ingestion.RunAsWritten | main.py:68-69 | `main` as written: the same steps, but calling the registered report object fails with the TypeError; no contract of its own, see Ingestion.AsWrittenNeverReports |
| Ingestion.AsWrittenNeverReports | main.py:68-69 | as written, no run prints a report; every run that the intended code completes ends in the TypeError instead |
| Ingestion.HeaderOnlyRun | main.py:68-69 | for one file holding only its header, the intended run prints "Total payout: $0" and the run as written fails |
| Ingestion.UnknownReportFirst | main.py:44-46 | an unknown report name fails with the list of available names, whatever the files hold |
| Ingestion.RunSucceeds | main.py:44-69 | a run succeeds exactly when the name is "payout" and every file builds; it then prints the payout report of all employees |
| Wrappers.Traverse | main.py:52-65 | a loop that appends each element's result and stops at the first failure; no contract of its own, see the Traverse lemmas below |
| Wrappers.TraverseOk | main.py:52-62 | a successful traversal has one result per element, each element's own result |
| Wrappers.TraverseAllOk | main.py:50-62 | when every element succeeds, so does the traversal, with the results in order |
| Wrappers.TraverseEach | main.py:50-62 | a traversal whose elements give the listed results returns exactly that list |
| Wrappers.TraverseFirstErr | main.py:63-65 | the traversal fails with the first failing element's error |
| Wrappers.TraversePrefixErr | main.py:63-65 | a failure in a prefix is the failure of the whole traversal |
| Wrappers.TraverseStepOk | main.py:62 | a successful prefix extended by a successful element appends its result |
| Wrappers.TraverseStepErr | main.py:63-65 | a successful prefix followed by a failing element fails the whole traversal there |
| Wrappers.FirstErr | main.py:63-65 | the position of the first failing element: it fails, and every element before it succeeds |
| Wrappers.MapSeq | report.py:31-37 | one image per element |
| Wrappers.MapSeqAt | report.py:31-37 | element k of the mapped list is the image of element k |
| Wrappers.MapSeqStep | report.py:37 | mapping one more element appends its image |

## Left out

- Argument parsing with `argparse`, and the `__main__` guard (main.py:37-41, 73-74), are left out. The model takes the report name and the files as parameters.
- Opening, decoding and reading files is left out: a file is its list of lines. So `FileNotFoundError` and decoding errors, which also end in exit status 1, are not modelled.
- `print` and `sys.exit(1)` are left out: each becomes an `Err` value of `Ingestion.Failure`. The message text, including its Russian wording, is not modelled. The value keeps what the message names: the file, the failing key or text, and the report name with the list of available names.
- `Report`'s abstract base class (report.py:6-11) is modelled as a datatype of report kinds with one case.
- Text.ParseReal: returns the exact decimal value, while Python's `float()` rounds to the nearest double. It covers only the decimal forms: an optional sign, then ASCII digits with at most one point. It rejects exponents, `inf`, `nan`, underscores and non-ASCII Unicode digits, all of which `float()` accepts; hours given as `nan` would pass the `< 0` checks in Python. A decimal-form number too large for a double becomes `inf` in Python. A decimal-form negative too small for a double becomes -0.0, which passes the `< 0` check, while the model rejects it as NegativeHours or NegativeRate. Hours or rate written as "-0" are -0.0 in Python and print as "Payout: $-0"; the model reads them as 0 and prints "$0".
- Text.ParseRealDigits: holds in the model only. Python's `float()` of a run of digits is not its integer value above 2^53, for example `float("9007199254740993")` is 9007199254740992.0.
- Text.ParseRealOfNat: holds in the model only, for the same reason: `float(str(n)) == n` fails in Python for an n above 2^53 that no double represents.
- Text.ParseInt: accepts ASCII digits only. Python's `int()` also takes other Unicode decimal digits and underscores between digits. Since Python 3.11 `int()` also refuses a text of more than 4300 digits, which the model accepts.
- Employees.Payout: is exact real arithmetic. Python multiplies binary floats, so the last digit of a large or fractional payout can differ. A factor that overflowed to `inf` gives an `inf` payout, or `nan` when the other factor is 0, so Employees.PayoutNonNegative does not hold for Python in that case.
- Text.FormatFixed0: rounds the exact real value half to even. Python rounds the binary float, and prints negative zero as "-0". The model prints "-0" for every negative amount that rounds to zero.
- Reports.TotalPayout: sums exactly. Python adds the float payouts in list order, rounding after each addition.
- The tests in tests/test_main.py:3,12,22 import a `PayrollError` and expect a "missing required fields" check in `read_csv_file`. Neither exists in main.py, which reports a malformed line by printing and exiting. The model follows main.py.

## Findings

| source | as written | input that shows it | evidently intended | confidence | as-written member | corrected member |
|---|---|---|---|---|---|---|
| main.py:68-69 | `report_func = REPORTS[args.report]` is a `PayoutReport` instance, and `report_func(all_employees)` calls it; the class defines no `__call__`, so this raises a TypeError after all files have been read | `--report payout` with a single file that holds only its header line (`Ingestion.HeaderOnlyRun`) | call `REPORTS[args.report].generate(all_employees)`, or `generate_report(args.report, all_employees)` | high, not executed | Ingestion.RunAsWritten (see Ingestion.AsWrittenNeverReports) | Ingestion.Run (Ingestion.RunPayroll) |

=== FILE: employee.dfy ===
/** One employee's pay inputs, validated when the record is built (employee.py). */
module Employees {
  import opened Wrappers

  /** Why construction was refused; the hours check runs before the rate check. */
  datatype ValidationError = NegativeHours | NegativeRate

  datatype Employee = Employee(
    id: int,
    email: string,
    name: string,
    department: string,
    hoursWorked: real,
    hourlyRate: real)

  /** The invariant every constructed employee satisfies. */
  predicate Valid(e: Employee) {
    e.hoursWorked >= 0.0 && e.hourlyRate >= 0.0
  }

  /** `Employee(...)` followed by `__post_init__`: the record, or the first failed check.
      Identifier, email, name and department are taken as given. */
  function NewEmployee(id: int, email: string, name: string, department: string,
                       hoursWorked: real, hourlyRate: real): (r: Result<Employee, ValidationError>)
    ensures r.Ok? ==> Valid(r.value)
  {
    if hoursWorked < 0.0 then Err(NegativeHours)
    else if hourlyRate < 0.0 then Err(NegativeRate)
    else Ok(Employee(id, email, name, department, hoursWorked, hourlyRate))
  }

  /** `calculate_payout`. */
  function Payout(e: Employee): real {
    e.hoursWorked * e.hourlyRate
  }

  /** Construction succeeds exactly when neither hours nor rate is negative (zero is
      allowed), and then keeps every field as given. */
  lemma NewEmployeeSucceeds(id: int, email: string, name: string, department: string,
                            hoursWorked: real, hourlyRate: real)
    ensures NewEmployee(id, email, name, department, hoursWorked, hourlyRate).Ok?
            <==> hoursWorked >= 0.0 && hourlyRate >= 0.0
    ensures hoursWorked >= 0.0 && hourlyRate >= 0.0 ==>
            NewEmployee(id, email, name, department, hoursWorked, hourlyRate)
            == Ok(Employee(id, email, name, department, hoursWorked, hourlyRate))
  {
  }

  /** Negative hours are reported as such, whatever the rate; negative rate only when
      the hours passed. */
  lemma NewEmployeeFailures(id: int, email: string, name: string, department: string,
                            hoursWorked: real, hourlyRate: real)
    ensures hoursWorked < 0.0 ==>
            NewEmployee(id, email, name, department, hoursWorked, hourlyRate) == Err(NegativeHours)
    ensures hoursWorked >= 0.0 && hourlyRate < 0.0 ==>
            NewEmployee(id, email, name, department, hoursWorked, hourlyRate) == Err(NegativeRate)
  {
  }

  /** A valid employee's payout is never negative, and is zero when either factor is. */
  lemma PayoutNonNegative(e: Employee)
    requires Valid(e)
    ensures Payout(e) >= 0.0
    ensures e.hoursWorked == 0.0 || e.hourlyRate == 0.0 ==> Payout(e) == 0.0
  {
  }

  /** The payouts of tests/test_employee.py. */
  lemma PayoutExamples()
    ensures Payout(Employee(1, "test@example.com", "Test User", "Test", 160.0, 50.0)) == 8000.0
    ensures Payout(Employee(1, "test@example.com", "Test User", "Test", 150.0, 40.0)) == 6000.0
    ensures Payout(Employee(1, "test@example.com", "Test User", "Test", 170.0, 60.0)) == 10200.0
  {
  }

  /** The rejected constructions of tests/test_employee.py. */
  lemma RejectionExamples()
    ensures NewEmployee(2, "test@example.com", "Test User", "Test", -10.0, 40.0) == Err(NegativeHours)
    ensures NewEmployee(2, "test@example.com", "Test User", "Test", 160.0, -50.0) == Err(NegativeRate)
  {
  }
}

=== FILE: main.dfy ===
/** Reading the CSV files, building the employees and running the chosen report (main.py). */
module Ingestion {
  import opened Wrappers
  import opened Text
  import opened Employees
  import opened Reports

  /** One data line of a file, keyed by the header names. */
  type Row = map<string, string>

  /** An input file: its path and its lines, in file order. A line may keep its
      terminator, as Python's file iteration does: `strip` removes it before the split.
      Opening and reading the file is not part of this model. */
  datatype InputFile = InputFile(path: string, lines: seq<string>)

  /** Why a row could not become an employee. */
  datatype Cause =
    | MissingKey(key: string)            // KeyError from data[key]
    | NotAnInteger(text: string)         // ValueError from int(...)
    | NotANumber(text: string)           // ValueError from float(...)
    | Rejected(reason: ValidationError)  // ValueError from Employee.__post_init__

  /** Why a run stops. Each of these is a message followed by exit status 1. */
  datatype Failure =
    | UnknownReport(name: string, available: seq<string>)
    | MalformedRow(path: string)
    | DataError(path: string, cause: Cause)
    | NotCallable(kind: ReportKind)

  // ---- read_csv_file ----

  /** `line.strip().split(',')`. */
  function Fields(line: string): seq<string> {
    Split(Strip(line), ',')
  }

  /** The header line: what `readline()` returns, "" for an empty file. */
  function HeaderLine(lines: seq<string>): string {
    if |lines| == 0 then "" else lines[0]
  }

  function Headers(lines: seq<string>): seq<string> {
    Fields(HeaderLine(lines))
  }

  /** The lines after the header, in file order. */
  function DataLines(lines: seq<string>): seq<string> {
    if |lines| == 0 then [] else lines[1..]
  }

  function Min(a: nat, b: nat): nat {
    if a < b then a else b
  }

  /** `dict(zip(keys, values))`: pairs up to the shorter list, a later key overwriting
      an earlier equal one. */
  function ZipMap(keys: seq<string>, values: seq<string>): Row
    decreases |keys|
  {
    var n := Min(|keys|, |values|);
    if n == 0 then map[]
    else ZipMap(keys[..n - 1], values[..n - 1])[keys[n - 1] := values[n - 1]]
  }

  /** The keys of the dictionary are the keys that have a value to pair with. */
  lemma {:induction false} ZipMapKeys(keys: seq<string>, values: seq<string>, key: string)
    ensures key in ZipMap(keys, values) <==> exists k :: 0 <= k < Min(|keys|, |values|) && keys[k] == key
    decreases |keys|
  {
    var n := Min(|keys|, |values|);
    if n > 0 {
      ZipMapKeys(keys[..n - 1], values[..n - 1], key);
      assert forall k :: 0 <= k < n - 1 ==> keys[..n - 1][k] == keys[k];
    }
  }

  /** A key not repeated later is paired with the value in its own position. */
  lemma {:induction false} ZipMapValue(keys: seq<string>, values: seq<string>, k: nat)
    requires k < Min(|keys|, |values|)
    requires forall j :: k < j < Min(|keys|, |values|) ==> keys[j] != keys[k]
    ensures keys[k] in ZipMap(keys, values) && ZipMap(keys, values)[keys[k]] == values[k]
    decreases |keys|
  {
    var n := Min(|keys|, |values|);
    if k < n - 1 {
      ZipMapValue(keys[..n - 1], values[..n - 1], k);
    }
  }

  /** Every data line has as many fields as the header. */
  predicate SameWidth(headers: seq<string>, data: seq<string>) {
    forall k :: 0 <= k < |data| ==> |Fields(data[k])| == |headers|
  }

  /** One dictionary per data line, in order. */
  function Rows(headers: seq<string>, data: seq<string>): (r: seq<Row>)
    ensures |r| == |data|
    ensures forall k :: 0 <= k < |data| ==> r[k] == ZipMap(headers, Fields(data[k]))
    decreases |data|
  {
    if |data| == 0 then []
    else
      var n := |data| - 1;
      assert forall k :: 0 <= k < n ==> data[..n][k] == data[k];
      Rows(headers, data[..n]) + [ZipMap(headers, Fields(data[n]))]
  }

  /** What `read_csv_file` returns for a file: one row per data line, in file order, or
      a failure naming the file when some data line has a different number of fields
      than the header. */
  function ParseCsv(path: string, lines: seq<string>): Result<seq<Row>, Failure> {
    var headers := Headers(lines);
    var data := DataLines(lines);
    if SameWidth(headers, data) then Ok(Rows(headers, data)) else Err(MalformedRow(path))
  }

  /** One more line of the right width keeps the checked prefix of the right width. */
  lemma SameWidthStep(headers: seq<string>, data: seq<string>, i: nat)
    requires i < |data| && SameWidth(headers, data[..i]) && |Fields(data[i])| == |headers|
    ensures SameWidth(headers, data[..i + 1])
  {
    assert forall k :: 0 <= k < i + 1 ==> data[..i + 1][k] == data[k];
    assert forall k :: 0 <= k < i ==> data[..i][k] == data[k];
  }

  /** One more line adds its row at the end. */
  lemma RowsStep(headers: seq<string>, data: seq<string>, i: nat)
    requires i < |data|
    ensures Rows(headers, data[..i + 1]) == Rows(headers, data[..i]) + [ZipMap(headers, Fields(data[i]))]
  {
    assert data[..i + 1][..i] == data[..i];
  }

  /** `read_csv_file`: splits the header, then each line in turn, stopping at the first
      line of the wrong shape. */
  method ReadCsvFile(path: string, lines: seq<string>) returns (r: Result<seq<Row>, Failure>)
    ensures r == ParseCsv(path, lines)
  {
    var employeesData: seq<Row> := [];
    var headers := Fields(HeaderLine(lines));
    var data := DataLines(lines);
    var i := 0;
    while i < |data|
      invariant 0 <= i <= |data|
      invariant SameWidth(headers, data[..i])
      invariant employeesData == Rows(headers, data[..i])
    {
      var values := Fields(data[i]);
      if |values| != |headers| {
        assert !SameWidth(headers, data);
        return Err(MalformedRow(path));
      }
      SameWidthStep(headers, data, i);
      RowsStep(headers, data, i);
      employeesData := employeesData + [ZipMap(headers, values)];
      i := i + 1;
    }
    assert data[..i] == data;
    return Ok(employeesData);
  }

  // ---- Properties of read_csv_file ----

  /** Reading fails exactly when some data line's field count differs from the header's,
      and the failure names the file alone. */
  lemma ParseCsvFails(path: string, lines: seq<string>)
    ensures ParseCsv(path, lines).Err? <==>
            exists k :: 1 <= k < |lines| && |Fields(lines[k])| != |Headers(lines)|
    ensures ParseCsv(path, lines).Err? ==> ParseCsv(path, lines) == Err(MalformedRow(path))
  {
    var data := DataLines(lines);
    assert forall k :: 1 <= k < |lines| ==> data[k - 1] == lines[k];
  }

  /** A successful read has one row per data line, in file order; data line `k + 1`
      has the header's width, and row `k` has exactly the header names as keys. */
  lemma ParseCsvRows(path: string, lines: seq<string>, rows: seq<Row>, k: nat)
    requires ParseCsv(path, lines) == Ok(rows)
    requires k < |rows|
    ensures |rows| == |lines| - 1
    ensures rows[k] == ZipMap(Headers(lines), Fields(lines[k + 1]))
    ensures |Fields(lines[k + 1])| == |Headers(lines)|
    ensures forall key :: key in rows[k] <==> key in Headers(lines)
  {
    var headers := Headers(lines);
    var data := DataLines(lines);
    assert data[k] == lines[k + 1];
    var values := Fields(data[k]);
    assert |values| == |headers|;
    forall key
      ensures key in rows[k] <==> key in headers
    {
      ZipMapKeys(headers, values, key);
    }
  }

  /** Row `k` sends a header name to the value in its column of line `k + 1`, the last
      such column when the name repeats. */
  lemma ParseCsvValue(path: string, lines: seq<string>, rows: seq<Row>, k: nat, i: nat)
    requires ParseCsv(path, lines) == Ok(rows)
    requires k < |rows|
    requires i < |Headers(lines)|
    requires forall j :: i < j < |Headers(lines)| ==> Headers(lines)[j] != Headers(lines)[i]
    ensures Headers(lines)[i] in rows[k]
    ensures rows[k][Headers(lines)[i]] == Fields(lines[k + 1])[i]
  {
    var headers := Headers(lines);
    var data := DataLines(lines);
    assert data[k] == lines[k + 1];
    var values := Fields(data[k]);
    assert |values| == |headers|;
    ZipMapValue(headers, values, i);
  }

  /** A blank data line (a trailing empty line, say) strips to "" and so has one field:
      the read fails unless the header has exactly one column. */
  lemma BlankLineFails(path: string, lines: seq<string>, k: nat)
    requires 1 <= k < |lines|
    requires forall j :: 0 <= j < |lines[k]| ==> IsWhitespace(lines[k][j])
    requires |Headers(lines)| != 1
    ensures ParseCsv(path, lines) == Err(MalformedRow(path))
  {
    StripBlank(lines[k]);
    assert Fields(lines[k]) == [""];
    ParseCsvFails(path, lines);
  }

  /** An empty file has the single header "" and no rows: it reads successfully. */
  lemma EmptyFileReads(path: string)
    ensures ParseCsv(path, []) == Ok([])
  {
  }

  /** The fields of a line, joined back with commas, are the stripped line: there is
      no quoting, so every comma separates two fields. */
  lemma FieldsRoundTrip(line: string)
    ensures Join(Fields(line), ',') == Strip(line)
    ensures |Fields(line)| == Occurrences(Strip(line), ',') + 1
  {
    JoinSplit(Strip(line), ',');
  }

  // ---- Building employees from rows (main.py, inner loop) ----

  function TextField(row: Row, key: string): Result<string, Cause> {
    if key !in row then Err(MissingKey(key)) else Ok(row[key])
  }

  /** `int(data[key])`. */
  function IntField(row: Row, key: string): Result<int, Cause> {
    if key !in row then Err(MissingKey(key))
    else match ParseInt(row[key])
      case None => Err(NotAnInteger(row[key]))
      case Some(n) => Ok(n)
  }

  /** `float(data[key])`. */
  function RealField(row: Row, key: string): Result<real, Cause> {
    if key !in row then Err(MissingKey(key))
    else match ParseReal(row[key])
      case None => Err(NotANumber(row[key]))
      case Some(x) => Ok(x)
  }

  /** `Employee(id=int(data['id']), ..., hourly_rate=float(data['hourly_rate']))`, the
      arguments evaluated left to right, so the first missing or malformed one is the
      one reported. */
  function BuildEmployee(row: Row): Result<Employee, Cause> {
    var id :- IntField(row, "id");
    var email :- TextField(row, "email");
    var name :- TextField(row, "name");
    var department :- TextField(row, "department");
    var hours :- RealField(row, "hours_worked");
    var rate :- RealField(row, "hourly_rate");
    match NewEmployee(id, email, name, department, hours, rate)
    case Err(reason) => Err(Rejected(reason))
    case Ok(e) => Ok(e)
  }

  /** The row has all six keys `main` reads. */
  predicate HasRequiredKeys(row: Row) {
    "id" in row && "email" in row && "name" in row && "department" in row
    && "hours_worked" in row && "hourly_rate" in row
  }

  /** `BuildEmployee` in terms of the six field conversions. */
  lemma BuildEmployeeFields(row: Row)
    ensures BuildEmployee(row).Ok? <==>
            && HasRequiredKeys(row)
            && IntField(row, "id").Ok?
            && RealField(row, "hours_worked").Ok? && RealField(row, "hourly_rate").Ok?
            && RealField(row, "hours_worked").value >= 0.0
            && RealField(row, "hourly_rate").value >= 0.0
    ensures BuildEmployee(row).Ok? ==>
            BuildEmployee(row).value == Employee(
              IntField(row, "id").value, row["email"], row["name"], row["department"],
              RealField(row, "hours_worked").value, RealField(row, "hourly_rate").value)
  {
    var id := IntField(row, "id");
    var hours := RealField(row, "hours_worked");
    var rate := RealField(row, "hourly_rate");
    if HasRequiredKeys(row) && id.Ok? && hours.Ok? && rate.Ok? {
      NewEmployeeSucceeds(id.value, row["email"], row["name"], row["department"], hours.value, rate.value);
    }
  }

  /** A row becomes an employee exactly when all six keys are present, the identifier
      is an integer, hours and rate are numbers and neither is negative; the employee
      then carries those values. */
  lemma BuildEmployeeSucceeds(row: Row)
    ensures BuildEmployee(row).Ok? <==>
            && HasRequiredKeys(row)
            && ParseInt(row["id"]).Some?
            && ParseReal(row["hours_worked"]).Some? && ParseReal(row["hourly_rate"]).Some?
            && ParseReal(row["hours_worked"]).value >= 0.0
            && ParseReal(row["hourly_rate"]).value >= 0.0
    ensures BuildEmployee(row).Ok? ==>
            BuildEmployee(row).value == Employee(
              ParseInt(row["id"]).value, row["email"], row["name"], row["department"],
              ParseReal(row["hours_worked"]).value, ParseReal(row["hourly_rate"]).value)
  {
    BuildEmployeeFields(row);
    if HasRequiredKeys(row) {
      IntFieldOf(row, "id");
      RealFieldOf(row, "hours_worked");
      RealFieldOf(row, "hourly_rate");
    }
  }

  lemma IntFieldOf(row: Row, key: string)
    requires key in row
    ensures IntField(row, key).Ok? <==> ParseInt(row[key]).Some?
    ensures IntField(row, key).Ok? ==> IntField(row, key).value == ParseInt(row[key]).value
  {
  }

  lemma RealFieldOf(row: Row, key: string)
    requires key in row
    ensures RealField(row, key).Ok? <==> ParseReal(row[key]).Some?
    ensures RealField(row, key).Ok? ==> RealField(row, key).value == ParseReal(row[key]).value
  {
  }

  /** The two rows agree on `key`: both lack it or both map it to the same text. */
  predicate AgreeOn(row: Row, other: Row, key: string) {
    (key in row <==> key in other) && (key in row ==> row[key] == other[key])
  }

  /** Rows that agree on the six keys agree on each field conversion. */
  lemma FieldsAgree(row: Row, other: Row)
    requires AgreeOn(row, other, "id") && AgreeOn(row, other, "email")
    requires AgreeOn(row, other, "name") && AgreeOn(row, other, "department")
    requires AgreeOn(row, other, "hours_worked") && AgreeOn(row, other, "hourly_rate")
    ensures IntField(row, "id") == IntField(other, "id")
    ensures TextField(row, "email") == TextField(other, "email")
    ensures TextField(row, "name") == TextField(other, "name")
    ensures TextField(row, "department") == TextField(other, "department")
    ensures RealField(row, "hours_worked") == RealField(other, "hours_worked")
    ensures RealField(row, "hourly_rate") == RealField(other, "hourly_rate")
  {
  }

  /** Columns other than the six are never read: rows that agree on those keys build
      the same employee or fail the same way. */
  lemma ExtraColumnsIgnored(row: Row, other: Row)
    requires AgreeOn(row, other, "id") && AgreeOn(row, other, "email")
    requires AgreeOn(row, other, "name") && AgreeOn(row, other, "department")
    requires AgreeOn(row, other, "hours_worked") && AgreeOn(row, other, "hourly_rate")
    ensures BuildEmployee(row) == BuildEmployee(other)
  {
    FieldsAgree(row, other);
  }

  /** Email, name and department are not validated: replace them in a good row by any
      text at all and the row still builds, carrying the new text. */
  lemma TextFieldsNotValidated(row: Row, other: Row)
    requires BuildEmployee(row).Ok?
    requires AgreeOn(row, other, "id")
    requires AgreeOn(row, other, "hours_worked") && AgreeOn(row, other, "hourly_rate")
    requires "email" in other && "name" in other && "department" in other
    ensures BuildEmployee(other)
            == Ok(BuildEmployee(row).value.(email := other["email"], name := other["name"],
                                             department := other["department"]))
  {
    BuildEmployeeFields(row);
    assert IntField(other, "id") == IntField(row, "id");
    assert RealField(other, "hours_worked") == RealField(row, "hours_worked");
    assert RealField(other, "hourly_rate") == RealField(row, "hourly_rate");
    BuildEmployeeFields(other);
  }

  /** A row of a given file becomes an employee, a failure naming the file otherwise. */
  function RowEmployee(path: string): Row -> Result<Employee, Failure> {
    row =>
      match BuildEmployee(row)
      case Err(cause) => Err(DataError(path, cause))
      case Ok(e) => Ok(e)
  }

  /** The employees of one file, in row order, or the first failure reading it. */
  function FileEmployees(file: InputFile): Result<seq<Employee>, Failure> {
    match ParseCsv(file.path, file.lines)
    case Err(e) => Err(e)
    case Ok(rows) => Traverse(RowEmployee(file.path), rows)
  }

  /** Concatenation of the groups in order. */
  function Flatten(groups: seq<seq<Employee>>): seq<Employee>
    decreases |groups|
  {
    if |groups| == 0 then [] else Flatten(groups[..|groups| - 1]) + groups[|groups| - 1]
  }

  /** `all_employees`: every file's employees, in argument order then row order, or the
      first failure met on the way. */
  function Collect(files: seq<InputFile>): Result<seq<Employee>, Failure> {
    match Traverse(FileEmployees, files)
    case Err(e) => Err(e)
    case Ok(groups) => Ok(Flatten(groups))
  }

  // ---- Properties of the collection ----

  /** A file that reads successfully yields the traversal of its rows. */
  lemma FileEmployeesOf(file: InputFile, rows: seq<Row>)
    requires ParseCsv(file.path, file.lines) == Ok(rows)
    ensures FileEmployees(file) == Traverse(RowEmployee(file.path), rows)
  {
  }

  /** A file's employees correspond one to one, in order, to its data rows. */
  lemma FileEmployeesRows(file: InputFile, rows: seq<Row>, employees: seq<Employee>)
    requires ParseCsv(file.path, file.lines) == Ok(rows)
    requires FileEmployees(file) == Ok(employees)
    ensures |employees| == |rows|
    ensures forall k :: 0 <= k < |rows| ==> BuildEmployee(rows[k]) == Ok(employees[k])
  {
    var f := RowEmployee(file.path);
    FileEmployeesOf(file, rows);
    TraverseOk(f, rows, employees);
    forall k | 0 <= k < |rows|
      ensures BuildEmployee(rows[k]) == Ok(employees[k])
    {
      assert f(rows[k]) == Ok(employees[k]);
    }
  }

  /** The first row that cannot become an employee fails the whole file, with that
      row's cause. */
  lemma FileFailsAtRow(file: InputFile, rows: seq<Row>, k: nat)
    requires ParseCsv(file.path, file.lines) == Ok(rows)
    requires k < |rows| && BuildEmployee(rows[k]).Err?
    requires forall j :: 0 <= j < k ==> BuildEmployee(rows[j]).Ok?
    ensures FileEmployees(file) == Err(DataError(file.path, BuildEmployee(rows[k]).error))
  {
    var f := RowEmployee(file.path);
    assert forall j :: 0 <= j < k ==> f(rows[j]).Ok?;
    TraverseFirstErr(f, rows, k);
  }

  /** When every file succeeds, the employees are the files' employees concatenated in
      argument order. */
  lemma CollectAll(files: seq<InputFile>, groups: seq<seq<Employee>>)
    requires |groups| == |files|
    requires forall i :: 0 <= i < |files| ==> FileEmployees(files[i]) == Ok(groups[i])
    ensures Collect(files) == Ok(Flatten(groups))
  {
    TraverseEach(FileEmployees, files, groups);
  }

  /** The first file that fails (to read, or in a row) ends the run with its failure:
      nothing collected from earlier files is kept. */
  lemma CollectFailsAtFile(files: seq<InputFile>, i: nat)
    requires i < |files| && FileEmployees(files[i]).Err?
    requires forall j :: 0 <= j < i ==> FileEmployees(files[j]).Ok?
    ensures Collect(files) == Err(FileEmployees(files[i]).error)
  {
    TraverseFirstErr(FileEmployees, files, i);
  }

  /** The collection succeeds exactly when every file does. */
  lemma CollectSucceeds(files: seq<InputFile>)
    ensures Collect(files).Ok? <==> forall i :: 0 <= i < |files| ==> FileEmployees(files[i]).Ok?
  {
    if exists i :: 0 <= i < |files| && FileEmployees(files[i]).Err? {
      CollectFailsAtFile(files, FirstErr(FileEmployees, files));
    } else {
      TraverseAllOk(FileEmployees, files);
    }
  }

  // ---- main ----

  /** What `main` should print for a report name and the files, as intended: the
      unknown-name check comes before any file is read; then the collection; then the
      report `REPORTS[name].generate(all_employees)`. */
  function Run(reportName: string, files: seq<InputFile>): Result<string, Failure> {
    match Lookup(Registry, reportName)
    case None => Err(UnknownReport(reportName, ReportNames()))
    case Some(kind) =>
      match Collect(files)
      case Err(e) => Err(e)
      case Ok(all) => Ok(Generate(kind, all))
  }

  /** `main` as written: it calls `REPORTS[name](all_employees)`, but the registry holds
      a `PayoutReport` object, which is not callable, so the final step raises a
      TypeError. */
  function RunAsWritten(reportName: string, files: seq<InputFile>): Result<string, Failure> {
    match Lookup(Registry, reportName)
    case None => Err(UnknownReport(reportName, ReportNames()))
    case Some(kind) =>
      match Collect(files)
      case Err(e) => Err(e)
      case Ok(all) => Err(NotCallable(kind))
  }

  /** As written, `main` never prints a report: every run that gets past the files
      ends in the TypeError, while the intended run prints the payout report. */
  lemma AsWrittenNeverReports(reportName: string, files: seq<InputFile>)
    ensures RunAsWritten(reportName, files).Err?
    ensures Run(reportName, files).Ok? ==>
            RunAsWritten(reportName, files) == Err(NotCallable(PayoutReport))
            && Run(reportName, files) == Ok(PayoutText(Collect(files).value))
  {
    LookupRegistry(reportName);
  }

  /** A file holding only its header line, whatever the header: the intended run
      prints the empty report, the run as written stops with the TypeError. */
  lemma HeaderOnlyRun(path: string, header: string)
    ensures Run("payout", [InputFile(path, [header])]) == Ok("Total payout: $0")
    ensures RunAsWritten("payout", [InputFile(path, [header])]) == Err(NotCallable(PayoutReport))
  {
    var files := [InputFile(path, [header])];
    assert DataLines([header]) == [];
    assert ParseCsv(path, [header]) == Ok([]);
    assert FileEmployees(files[0]) == Ok([]);
    CollectAll(files, [[]]);
    assert Flatten([[]]) == [];
    LookupRegistry("payout");
  }

  /** An unknown report name is rejected, listing the available names, whatever the
      files hold (none of them is read). */
  lemma UnknownReportFirst(reportName: string, files: seq<InputFile>)
    requires reportName != "payout"
    ensures Run(reportName, files) == Err(UnknownReport(reportName, ["payout"]))
  {
    LookupRegistry(reportName);
  }

  /** A successful run prints the payout report of all collected employees. */
  lemma RunSucceeds(reportName: string, files: seq<InputFile>)
    ensures Run(reportName, files).Ok? <==> reportName == "payout" && Collect(files).Ok?
    ensures Run(reportName, files).Ok? ==>
            Run(reportName, files).value == PayoutText(Collect(files).value)
  {
    LookupRegistry(reportName);
  }

  /** One more group at the end adds its employees at the end. */
  lemma FlattenAppend(groups: seq<seq<Employee>>, group: seq<Employee>)
    ensures Flatten(groups + [group]) == Flatten(groups) + group
  {
    assert (groups + [group])[..|groups|] == groups;
  }

  /** The inner loop of `main`: builds the employees of one file's rows in order,
      appending each to `collected`, and stops at the first row that fails. */
  method AppendEmployees(path: string, rows: seq<Row>, collected: seq<Employee>)
    returns (r: Result<seq<Employee>, Failure>)
    ensures r == match Traverse(RowEmployee(path), rows)
                 case Err(e) => Err(e)
                 case Ok(employees) => Ok(collected + employees)
  {
    var allEmployees := collected;
    ghost var fileEmployees: seq<Employee> := [];
    for j := 0 to |rows|
      invariant Traverse(RowEmployee(path), rows[..j]) == Ok(fileEmployees)
      invariant allEmployees == collected + fileEmployees
    {
      var built := BuildEmployee(rows[j]);
      if built.Err? {
        TraverseStepErr(RowEmployee(path), rows, j);
        return Err(DataError(path, built.error));
      }
      TraverseStepOk(RowEmployee(path), rows, j, fileEmployees);
      allEmployees := allEmployees + [built.value];
      fileEmployees := fileEmployees + [built.value];
    }
    assert rows[..|rows|] == rows;
    return Ok(allEmployees);
  }

  /** `main` with the report step corrected: checks the report name, then reads each
      file and builds its employees in turn, appending them to one list, and stops at
      the first failure. */
  method RunPayroll(reportName: string, files: seq<InputFile>) returns (r: Result<string, Failure>)
    ensures r == Run(reportName, files)
  {
    var kind := Lookup(Registry, reportName);
    if kind.None? {
      return Err(UnknownReport(reportName, ReportNames()));
    }
    var allEmployees: seq<Employee> := [];
    ghost var groups: seq<seq<Employee>> := [];
    for i := 0 to |files|
      invariant Traverse(FileEmployees, files[..i]) == Ok(groups)
      invariant allEmployees == Flatten(groups)
    {
      var file := files[i];
      var employeesData := ReadCsvFile(file.path, file.lines);
      if employeesData.Err? {
        TraverseStepErr(FileEmployees, files, i);
        return Err(employeesData.error);
      }
      FileEmployeesOf(file, employeesData.value);
      var appended := AppendEmployees(file.path, employeesData.value, allEmployees);
      if appended.Err? {
        TraverseStepErr(FileEmployees, files, i);
        return Err(appended.error);
      }
      TraverseStepOk(FileEmployees, files, i, groups);
      FlattenAppend(groups, FileEmployees(file).value);
      allEmployees := appended.value;
      groups := groups + [FileEmployees(file).value];
    }
    assert files[..|files|] == files;
    var text: string;
    match kind.value
    case PayoutReport =>
      text := GeneratePayout(allEmployees);
    return Ok(text);
  }
}

=== FILE: report.dfy ===
/** Report generation and the registry of report kinds (report.py). */
module Reports {
  import opened Wrappers
  import opened Text
  import opened Employees

  /** The report kinds; `Report.generate` is dispatched on this. */
  datatype ReportKind = PayoutReport

  /** `generate_report`'s ValueError for a name that is not registered. */
  datatype ReportError = UnknownReportType(name: string)

  /** `REPORTS`, in its insertion order. */
  const Registry: seq<(string, ReportKind)> := [("payout", PayoutReport)]

  /** `name in REPORTS` and `REPORTS[name]`: the kind registered under `name`, if any. */
  function Lookup(entries: seq<(string, ReportKind)>, name: string): (r: Option<ReportKind>)
    ensures r.Some? <==> exists k :: 0 <= k < |entries| && entries[k].0 == name
    ensures r.Some? ==> exists k :: 0 <= k < |entries| && entries[k] == (name, r.value)
    decreases |entries|
  {
    if |entries| == 0 then None
    else if entries[0].0 == name then Some(entries[0].1)
    else
      var r := Lookup(entries[1..], name);
      assert forall k :: 1 <= k < |entries| ==> entries[k] == entries[1..][k - 1];
      r
  }

  /** `list(REPORTS.keys())`: exactly the names that can be looked up. */
  function ReportNames(): (r: seq<string>)
    ensures forall name :: name in r <==> Lookup(Registry, name).Some?
  {
    var r := seq(|Registry|, k requires 0 <= k < |Registry| => Registry[k].0);
    assert forall name :: name in r ==> exists k :: 0 <= k < |Registry| && Registry[k].0 == name;
    assert forall k :: 0 <= k < |Registry| ==> Registry[k].0 == r[k];
    r
  }

  /** "payout" is the one registered name. */
  lemma LookupRegistry(name: string)
    ensures Lookup(Registry, name) == if name == "payout" then Some(PayoutReport) else None
    ensures ReportNames() == ["payout"]
  {
  }

  // ---- The payout report ----

  const EmployeeLabel := "Employee: "
  const DepartmentLabel := "    Department: "
  const PayoutLabel := "    Payout: $"
  const TotalLabel := "Total payout: $"

  function Names(employees: seq<Employee>): seq<string> {
    seq(|employees|, k requires 0 <= k < |employees| => employees[k].name)
  }

  function Departments(employees: seq<Employee>): seq<string> {
    seq(|employees|, k requires 0 <= k < |employees| => employees[k].department)
  }

  /** A heading followed by `text` left-justified in `width` columns. */
  function Column(heading: string, text: string, width: nat): string {
    heading + PadRight(text, width)
  }

  /** A report line: name and department padded to the given widths, then the amount. */
  function Line(name: string, department: string, amount: string, nameWidth: nat, departmentWidth: nat): (r: string)
    ensures |r| == |EmployeeLabel| + (if |name| < nameWidth then nameWidth else |name|)
                   + |DepartmentLabel| + (if |department| < departmentWidth then departmentWidth else |department|)
                   + |PayoutLabel| + |amount|
  {
    Column(EmployeeLabel, name, nameWidth) + Column(DepartmentLabel, department, departmentWidth)
    + (PayoutLabel + amount)
  }

  /** The line of one employee, with name and department padded to the given widths. */
  function PayoutLine(e: Employee, nameWidth: nat, departmentWidth: nat): string {
    Line(e.name, e.department, FormatFixed0(Payout(e)), nameWidth, departmentWidth)
  }

  function TotalLine(total: real): string {
    TotalLabel + FormatFixed0(total)
  }

  /** The sum of the employees' payouts, accumulated in list order. */
  function TotalPayout(employees: seq<Employee>): real
    decreases |employees|
  {
    if |employees| == 0 then 0.0
    else TotalPayout(employees[..|employees| - 1]) + Payout(employees[|employees| - 1])
  }

  /** The line of each employee, padded to the given widths. */
  function LineOf(nameWidth: nat, departmentWidth: nat): Employee -> string {
    e => PayoutLine(e, nameWidth, departmentWidth)
  }

  /** The employees' lines in list order, all padded to the same widths. */
  function EmployeeLines(employees: seq<Employee>, nameWidth: nat, departmentWidth: nat): (r: seq<string>)
    ensures |r| == |employees|
  {
    MapSeq(LineOf(nameWidth, departmentWidth), employees)
  }

  /** Line `k` is employee `k`'s line. */
  lemma EmployeeLinesAt(employees: seq<Employee>, nameWidth: nat, departmentWidth: nat, k: nat)
    requires k < |employees|
    ensures EmployeeLines(employees, nameWidth, departmentWidth)[k]
            == PayoutLine(employees[k], nameWidth, departmentWidth)
  {
    MapSeqAt(LineOf(nameWidth, departmentWidth), employees, k);
  }

  /** One more employee adds its line at the end, and its payout to the total. */
  lemma EmployeeLinesStep(employees: seq<Employee>, nameWidth: nat, departmentWidth: nat, i: nat)
    requires i < |employees|
    ensures EmployeeLines(employees[..i + 1], nameWidth, departmentWidth)
            == EmployeeLines(employees[..i], nameWidth, departmentWidth)
               + [PayoutLine(employees[i], nameWidth, departmentWidth)]
    ensures TotalPayout(employees[..i + 1]) == TotalPayout(employees[..i]) + Payout(employees[i])
  {
    MapSeqStep(LineOf(nameWidth, departmentWidth), employees, i);
    assert employees[..i + 1][..i] == employees[..i];
  }

  /** The lines of a non-empty report: one per employee, in order, then the total. */
  function PayoutLines(employees: seq<Employee>): (r: seq<string>)
    requires |employees| > 0
    ensures |r| == |employees| + 1
  {
    EmployeeLines(employees, NameWidth(employees), DepartmentWidth(employees))
    + [TotalLine(TotalPayout(employees))]
  }

  /** The text `PayoutReport.generate` returns. */
  function PayoutText(employees: seq<Employee>): string {
    if |employees| == 0 then "Total payout: $0"
    else Join(PayoutLines(employees), '\n')
  }

  /** `PayoutReport.generate`: builds the lines in a loop while accumulating the total. */
  method GeneratePayout(employees: seq<Employee>) returns (text: string)
    ensures text == PayoutText(employees)
  {
    var output: seq<string> := [];
    var total := 0.0;
    if |employees| == 0 {
      return "Total payout: $0";
    }
    var nameWidth := NameWidth(employees);
    var departmentWidth := DepartmentWidth(employees);
    for i := 0 to |employees|
      invariant output == EmployeeLines(employees[..i], nameWidth, departmentWidth)
      invariant total == TotalPayout(employees[..i])
    {
      var payout := Payout(employees[i]);
      total := total + payout;
      var nameField := PadRight(employees[i].name, nameWidth);
      var departmentField := PadRight(employees[i].department, departmentWidth);
      var amount := FormatFixed0(payout);
      var line := (EmployeeLabel + nameField) + (DepartmentLabel + departmentField) + (PayoutLabel + amount);
      LineFromFields(employees[i], nameWidth, departmentWidth);
      assert line == PayoutLine(employees[i], nameWidth, departmentWidth);
      EmployeeLinesStep(employees, nameWidth, departmentWidth, i);
      output := output + [line];
    }
    assert employees[..|employees|] == employees;
    output := output + [TotalLine(total)];
    text := Join(output, '\n');
  }

  /** The line `generate` assembles from the padded fields is the employee's line. */
  lemma LineFromFields(e: Employee, nameWidth: nat, departmentWidth: nat)
    ensures (EmployeeLabel + PadRight(e.name, nameWidth)) + (DepartmentLabel + PadRight(e.department, departmentWidth))
            + (PayoutLabel + FormatFixed0(Payout(e))) == PayoutLine(e, nameWidth, departmentWidth)
  {
  }

  /** Line `k` of a report is employee `k`'s line, padded to widths its name and
      department fit in; the last line is the total. */
  lemma PayoutLineAt(employees: seq<Employee>, k: nat)
    requires k < |employees|
    ensures |employees[k].name| <= NameWidth(employees)
    ensures |employees[k].department| <= DepartmentWidth(employees)
    ensures PayoutLines(employees)[k]
            == PayoutLine(employees[k], NameWidth(employees), DepartmentWidth(employees))
    ensures PayoutLines(employees)[|employees|] == TotalLine(TotalPayout(employees))
  {
    EmployeeLinesAt(employees, NameWidth(employees), DepartmentWidth(employees), k);
  }

  /** `Report.generate`, dispatched on the kind. */
  function Generate(kind: ReportKind, employees: seq<Employee>): string {
    match kind
    case PayoutReport => PayoutText(employees)
  }

  /** `generate_report`: looks the name up in the registry, fails for an unknown one. */
  function GenerateReport(reportType: string, employees: seq<Employee>): Result<string, ReportError> {
    match Lookup(Registry, reportType)
    case None => Err(UnknownReportType(reportType))
    case Some(kind) => Ok(Generate(kind, employees))
  }

  // ---- Properties of the payout report ----

  /** Unknown names fail, and "payout" gives the payout report. */
  lemma GenerateReportDispatch(reportType: string, employees: seq<Employee>)
    ensures reportType != "payout" ==> GenerateReport(reportType, employees) == Err(UnknownReportType(reportType))
    ensures GenerateReport("payout", employees) == Ok(PayoutText(employees))
  {
    LookupRegistry(reportType);
    LookupRegistry("payout");
  }

  /** No employees: the report is the total line alone, with a total of zero. */
  lemma EmptyReport()
    ensures PayoutText([]) == "Total payout: $0" == TotalLine(TotalPayout([]))
  {
  }

  /** The total is additive over concatenation, so it is the sum over all employees
      whatever the grouping into files. */
  lemma {:induction false} TotalPayoutAppend(a: seq<Employee>, b: seq<Employee>)
    ensures TotalPayout(a + b) == TotalPayout(a) + TotalPayout(b)
    decreases |b|
  {
    if |b| > 0 {
      var n := |b| - 1;
      assert (a + b)[..|a + b| - 1] == a + b[..n];
      assert (a + b)[|a + b| - 1] == b[n];
      TotalPayoutAppend(a, b[..n]);
    } else {
      assert a + b == a;
    }
  }

  /** The total of valid employees is never negative. */
  lemma {:induction false} TotalPayoutNonNegative(employees: seq<Employee>)
    requires forall k :: 0 <= k < |employees| ==> Valid(employees[k])
    ensures TotalPayout(employees) >= 0.0
    decreases |employees|
  {
    if |employees| > 0 {
      var n := |employees| - 1;
      assert forall k :: 0 <= k < n ==> employees[..n][k] == employees[k];
      TotalPayoutNonNegative(employees[..n]);
      PayoutNonNegative(employees[n]);
    }
  }

  /** A slice that lies inside the left operand of a concatenation. */
  lemma SliceOfLeft(x: string, y: string, i: nat, j: nat)
    requires i <= j <= |x|
    ensures (x + y)[i..j] == x[i..j]
  {
  }

  /** A heading followed by a padded field: the heading, then the text, then spaces only. */
  lemma LabelledField(heading: string, text: string, width: nat)
    requires |text| <= width
    ensures var column := Column(heading, text, width);
            && |column| == |heading| + width
            && column[..|heading|] == heading
            && column[|heading|..|heading| + |text|] == text
            && forall k :: |heading| + |text| <= k < |column| ==> column[k] == ' '
  {
    var field := PadRight(text, width);
    var column := heading + field;
    assert column[|heading|..] == field;
    assert column[|heading|..|heading| + |text|] == field[..|text|];
    forall k | |heading| + |text| <= k < |column|
      ensures column[k] == ' '
    {
      assert column[k] == field[k - |heading|];
    }
  }

  /** The three columns of a line start at fixed offsets: the department column at
      10 + nameWidth and the payout column at 26 + nameWidth + departmentWidth. */
  lemma LineLayout(name: string, department: string, amount: string, nameWidth: nat, departmentWidth: nat)
    requires |name| <= nameWidth && |department| <= departmentWidth
    ensures var line := Line(name, department, amount, nameWidth, departmentWidth);
            var d := 10 + nameWidth;
            var p := d + 16 + departmentWidth;
            && |line| == p + 13 + |amount|
            && line[..d] == Column(EmployeeLabel, name, nameWidth)
            && line[d..p] == Column(DepartmentLabel, department, departmentWidth)
            && line[p..] == PayoutLabel + amount
  {
    var a := Column(EmployeeLabel, name, nameWidth);
    var b := Column(DepartmentLabel, department, departmentWidth);
    var c := PayoutLabel + amount;
    LabelledField(EmployeeLabel, name, nameWidth);
    LabelledField(DepartmentLabel, department, departmentWidth);
    var ab := a + b;
    assert Line(name, department, amount, nameWidth, departmentWidth) == ab + c;
    SliceOfLeft(ab, c, 0, |a|);
    SliceOfLeft(ab, c, |a|, |ab|);
    assert (ab + c)[|ab|..] == c;
  }

  /** The widths the batch is padded to: the longest name (department), so every
      field fits and at least one is not padded at all. */
  function NameWidth(employees: seq<Employee>): (w: nat)
    requires |employees| > 0
    ensures forall k :: 0 <= k < |employees| ==> |employees[k].name| <= w
    ensures exists k :: 0 <= k < |employees| && |employees[k].name| == w
  {
    var names := Names(employees);
    var w := MaxLength(names);
    assert forall k :: 0 <= k < |employees| ==> names[k] == employees[k].name;
    w
  }

  function DepartmentWidth(employees: seq<Employee>): (w: nat)
    requires |employees| > 0
    ensures forall k :: 0 <= k < |employees| ==> |employees[k].department| <= w
    ensures exists k :: 0 <= k < |employees| && |employees[k].department| == w
  {
    var departments := Departments(employees);
    var w := MaxLength(departments);
    assert forall k :: 0 <= k < |employees| ==> departments[k] == employees[k].department;
    w
  }

  /** A slice of a slice is a slice of the whole. */
  lemma SliceOfSlice(s: string, i: nat, j: nat, i2: nat, j2: nat)
    requires i <= j <= |s| && i2 <= j2 <= j - i
    ensures s[i..j][i2..j2] == s[i + i2..i + j2]
  {
    var t := s[i..j][i2..j2];
    assert |t| == j2 - i2;
    assert forall k :: 0 <= k < |t| ==> t[k] == s[i + i2 + k];
  }

  /** A line field by field: "Employee: ", the name, then spaces up to column
      10 + nameWidth, where "    Department: " starts; the department and spaces up to
      column 26 + nameWidth + departmentWidth, where "    Payout: $" starts; then the
      amount. Neither field is ever truncated. */
  lemma LineColumns(name: string, department: string, amount: string, nameWidth: nat, departmentWidth: nat)
    requires |name| <= nameWidth && |department| <= departmentWidth
    ensures var line := Line(name, department, amount, nameWidth, departmentWidth);
            var d := 10 + nameWidth;
            var p := d + 16 + departmentWidth;
            && |line| == p + 13 + |amount|
            && line[..10] == EmployeeLabel
            && line[10..10 + |name|] == name
            && (forall k :: 10 + |name| <= k < d ==> line[k] == ' ')
            && line[d..d + 16] == DepartmentLabel
            && line[d + 16..d + 16 + |department|] == department
            && (forall k :: d + 16 + |department| <= k < p ==> line[k] == ' ')
            && line[p..p + 13] == PayoutLabel
            && line[p + 13..] == amount
  {
    NameColumnAt(name, department, amount, nameWidth, departmentWidth);
    DepartmentColumnAt(name, department, amount, nameWidth, departmentWidth);
    PayoutColumnAt(name, department, amount, nameWidth, departmentWidth);
  }

  lemma NameColumnAt(name: string, department: string, amount: string, nameWidth: nat, departmentWidth: nat)
    requires |name| <= nameWidth && |department| <= departmentWidth
    ensures var line := Line(name, department, amount, nameWidth, departmentWidth);
            && line[..10] == EmployeeLabel
            && line[10..10 + |name|] == name
            && (forall k :: 10 + |name| <= k < 10 + nameWidth ==> line[k] == ' ')
  {
    var line := Line(name, department, amount, nameWidth, departmentWidth);
    var d := 10 + nameWidth;
    LineLayout(name, department, amount, nameWidth, departmentWidth);
    LabelledField(EmployeeLabel, name, nameWidth);
    SliceOfSlice(line, 0, d, 0, 10);
    SliceOfSlice(line, 0, d, 10, 10 + |name|);
    forall k | 10 + |name| <= k < d
      ensures line[k] == ' '
    {
      assert line[k] == line[..d][k];
    }
  }

  lemma DepartmentColumnAt(name: string, department: string, amount: string, nameWidth: nat, departmentWidth: nat)
    requires |name| <= nameWidth && |department| <= departmentWidth
    ensures var line := Line(name, department, amount, nameWidth, departmentWidth);
            var d := 10 + nameWidth;
            var p := d + 16 + departmentWidth;
            && line[d..d + 16] == DepartmentLabel
            && line[d + 16..d + 16 + |department|] == department
            && (forall k :: d + 16 + |department| <= k < p ==> line[k] == ' ')
  {
    var line := Line(name, department, amount, nameWidth, departmentWidth);
    var d := 10 + nameWidth;
    var p := d + 16 + departmentWidth;
    LineLayout(name, department, amount, nameWidth, departmentWidth);
    LabelledField(DepartmentLabel, department, departmentWidth);
    SliceOfSlice(line, d, p, 0, 16);
    SliceOfSlice(line, d, p, 16, 16 + |department|);
    forall k | d + 16 + |department| <= k < p
      ensures line[k] == ' '
    {
      assert line[k] == line[d..p][k - d];
    }
  }

  lemma PayoutColumnAt(name: string, department: string, amount: string, nameWidth: nat, departmentWidth: nat)
    requires |name| <= nameWidth && |department| <= departmentWidth
    ensures var line := Line(name, department, amount, nameWidth, departmentWidth);
            var p := 26 + nameWidth + departmentWidth;
            && |line| == p + 13 + |amount|
            && line[p..p + 13] == PayoutLabel
            && line[p + 13..] == amount
  {
    var line := Line(name, department, amount, nameWidth, departmentWidth);
    var p := 26 + nameWidth + departmentWidth;
    LineLayout(name, department, amount, nameWidth, departmentWidth);
    SliceOfSlice(line, p, |line|, 0, 13);
    SliceOfSlice(line, p, |line|, 13, |line| - p);
  }

  /** A character in neither part is not in their concatenation. */
  lemma NotInAppend(a: string, b: string, c: char)
    requires c !in a && c !in b
    ensures c !in a + b
  {
    forall k | 0 <= k < |a + b|
      ensures (a + b)[k] != c
    {
      if k < |a| {
        assert (a + b)[k] == a[k];
      } else {
        assert (a + b)[k] == b[k - |a|];
      }
    }
  }

  /** Padding adds only spaces. */
  lemma NotInColumn(heading: string, text: string, width: nat, c: char)
    requires c !in heading && c !in text && c != ' '
    ensures c !in Column(heading, text, width)
  {
    var field := PadRight(text, width);
    forall k | 0 <= k < |field|
      ensures field[k] != c
    {
      if k < |text| {
        assert field[k] == field[..|text|][k];
      }
    }
    NotInAppend(heading, field, c);
  }

  /** A line built from pieces without a newline has none. */
  lemma NoNewlineInLine(name: string, department: string, amount: string, nameWidth: nat, departmentWidth: nat)
    requires '\n' !in name && '\n' !in department && '\n' !in amount
    ensures '\n' !in Line(name, department, amount, nameWidth, departmentWidth)
  {
    var a := Column(EmployeeLabel, name, nameWidth);
    var b := Column(DepartmentLabel, department, departmentWidth);
    NotInColumn(EmployeeLabel, name, nameWidth, '\n');
    NotInColumn(DepartmentLabel, department, departmentWidth, '\n');
    NotInAppend(a, b, '\n');
    NotInAppend(PayoutLabel, amount, '\n');
    NotInAppend(a + b, PayoutLabel + amount, '\n');
  }

  /** An employee's line has no newline when its name and department have none. */
  lemma PayoutLineNoNewline(e: Employee, nameWidth: nat, departmentWidth: nat)
    requires '\n' !in e.name && '\n' !in e.department
    ensures '\n' !in PayoutLine(e, nameWidth, departmentWidth)
  {
    NoNewlineInLine(e.name, e.department, FormatFixed0(Payout(e)), nameWidth, departmentWidth);
  }

  /** The total line never has a newline. */
  lemma TotalLineNoNewline(total: real)
    ensures '\n' !in TotalLine(total)
  {
  }

  /** No line of a report contains a newline when no name or department does. */
  lemma ReportLineNoNewline(employees: seq<Employee>, k: nat)
    requires 0 < |employees| && k <= |employees|
    requires forall j :: 0 <= j < |employees| ==>
      '\n' !in employees[j].name && '\n' !in employees[j].department
    ensures '\n' !in PayoutLines(employees)[k]
  {
    var nameWidth := NameWidth(employees);
    var departmentWidth := DepartmentWidth(employees);
    var lines := EmployeeLines(employees, nameWidth, departmentWidth);
    assert PayoutLines(employees) == lines + [TotalLine(TotalPayout(employees))];
    if k < |employees| {
      EmployeeLinesAt(employees, nameWidth, departmentWidth, k);
      PayoutLineNoNewline(employees[k], nameWidth, departmentWidth);
    } else {
      TotalLineNoNewline(TotalPayout(employees));
    }
  }

  /** When no name or department contains a newline, the report splits on "\n" into
      exactly one line per employee followed by the total line. */
  lemma ReportLines(employees: seq<Employee>)
    requires |employees| > 0
    requires forall k :: 0 <= k < |employees| ==>
      '\n' !in employees[k].name && '\n' !in employees[k].department
    ensures var lines := Split(PayoutText(employees), '\n');
            && |lines| == |employees| + 1
            && lines == PayoutLines(employees)
            && lines[|employees|] == TotalLine(TotalPayout(employees))
  {
    var lines := PayoutLines(employees);
    forall k | 0 <= k < |lines|
      ensures '\n' !in lines[k]
    {
      ReportLineNoNewline(employees, k);
    }
    SplitJoin(lines, '\n');
  }

  /** The amounts printed by tests/test_report.py. */
  lemma SampleAmounts()
    ensures FormatFixed0(8000.0) == "8000"
    ensures FormatFixed0(6000.0) == "6000"
    ensures FormatFixed0(14000.0) == "14000"
  {
    assert RoundHalfEven(8000.0) == 8000;
    assert RoundHalfEven(6000.0) == 6000;
    assert RoundHalfEven(14000.0) == 14000;
    assert NatToString(8) == "8";
    assert NatToString(80) == "80";
    assert NatToString(800) == "800";
    assert NatToString(6) == "6";
    assert NatToString(60) == "60";
    assert NatToString(600) == "600";
    assert NatToString(1) == "1";
    assert NatToString(14) == "14";
    assert NatToString(140) == "140";
    assert NatToString(1400) == "1400";
  }

  // The concrete lemmas below are split into small steps (one column, one
  // concatenation at a time) only to keep each proof small for the solver.

  /** Alice's line of tests/test_report.py. */
  lemma SampleLineAlice()
    ensures PayoutLine(Employee(1, "alice@example.com", "Alice Johnson", "Marketing", 160.0, 50.0), 13, 9)
            == "Employee: Alice Johnson    Department: Marketing    Payout: $8000"
  {
    var alice := Employee(1, "alice@example.com", "Alice Johnson", "Marketing", 160.0, 50.0);
    assert Payout(alice) == 8000.0;
    SampleAmounts();
    SampleTextAlice();
  }

  lemma SampleTextAlice()
    ensures Line("Alice Johnson", "Marketing", "8000", 13, 9)
            == "Employee: Alice Johnson    Department: Marketing    Payout: $8000"
  {
    assert Column(EmployeeLabel, "Alice Johnson", 13) == "Employee: Alice Johnson";
    assert Column(DepartmentLabel, "Marketing", 9) == "    Department: Marketing";
    SampleConcatAlice();
  }

  lemma SampleConcatAlice()
    ensures "Employee: Alice Johnson" + "    Department: Marketing" + ("    Payout: $" + "8000")
            == "Employee: Alice Johnson    Department: Marketing    Payout: $8000"
  {
    SampleConcatAliceColumns();
    assert "    Payout: $" + "8000" == "    Payout: $8000";
  }

  lemma SampleConcatAliceColumns()
    ensures "Employee: Alice Johnson" + "    Department: Marketing"
            == "Employee: Alice Johnson    Department: Marketing"
  {
  }

  /** Bob's line of tests/test_report.py, padded to Alice's longer name and department. */
  lemma SampleLineBob()
    ensures PayoutLine(Employee(2, "bob@example.com", "Bob Smith", "Design", 150.0, 40.0), 13, 9)
            == "Employee: Bob Smith        Department: Design       Payout: $6000"
  {
    var bob := Employee(2, "bob@example.com", "Bob Smith", "Design", 150.0, 40.0);
    assert Payout(bob) == 6000.0;
    SampleAmounts();
    SampleTextBob();
  }

  lemma SampleTextBob()
    ensures Line("Bob Smith", "Design", "6000", 13, 9)
            == "Employee: Bob Smith        Department: Design       Payout: $6000"
  {
    assert Spaces(4) == "    ";
    assert Spaces(3) == "   ";
    assert Column(EmployeeLabel, "Bob Smith", 13) == "Employee: Bob Smith    ";
    assert Column(DepartmentLabel, "Design", 9) == "    Department: Design   ";
    SampleConcatBob();
  }

  lemma SampleConcatBob()
    ensures "Employee: Bob Smith    " + "    Department: Design   " + ("    Payout: $" + "6000")
            == "Employee: Bob Smith        Department: Design       Payout: $6000"
  {
    SampleConcatBobColumns();
    assert "    Payout: $" + "6000" == "    Payout: $6000";
  }

  lemma SampleConcatBobColumns()
    ensures "Employee: Bob Smith    " + "    Department: Design   "
            == "Employee: Bob Smith        Department: Design   "
  {
  }

  lemma SampleText()
    ensures "Employee: Alice Johnson    Department: Marketing    Payout: $8000" + "\n"
            + ("Employee: Bob Smith        Department: Design       Payout: $6000" + "\n"
               + "Total payout: $14000")
            == "Employee: Alice Johnson    Department: Marketing    Payout: $8000\n"
               + "Employee: Bob Smith        Department: Design       Payout: $6000\n"
               + "Total payout: $14000"
  {
  }

  /** The lines of the report of tests/test_report.py. */
  lemma SampleLines()
    ensures PayoutLines([
              Employee(1, "alice@example.com", "Alice Johnson", "Marketing", 160.0, 50.0),
              Employee(2, "bob@example.com", "Bob Smith", "Design", 150.0, 40.0)])
            == ["Employee: Alice Johnson    Department: Marketing    Payout: $8000",
                "Employee: Bob Smith        Department: Design       Payout: $6000",
                "Total payout: $14000"]
  {
    var alice := Employee(1, "alice@example.com", "Alice Johnson", "Marketing", 160.0, 50.0);
    var bob := Employee(2, "bob@example.com", "Bob Smith", "Design", 150.0, 40.0);
    var employees := [alice, bob];
    SampleAmounts();
    SampleLineAlice();
    SampleLineBob();
    SampleWidthsAndTotal();
    SampleTotalLine();
    var lines := PayoutLines(employees);
    PayoutLineAt(employees, 0);
    PayoutLineAt(employees, 1);
    ThreeLines(lines, "Employee: Alice Johnson    Department: Marketing    Payout: $8000",
      "Employee: Bob Smith        Department: Design       Payout: $6000", "Total payout: $14000");
  }

  /** The widths and the total of the batch of tests/test_report.py. */
  lemma SampleWidthsAndTotal()
    ensures var employees := [
              Employee(1, "alice@example.com", "Alice Johnson", "Marketing", 160.0, 50.0),
              Employee(2, "bob@example.com", "Bob Smith", "Design", 150.0, 40.0)];
            && NameWidth(employees) == 13
            && DepartmentWidth(employees) == 9
            && TotalPayout(employees) == 14000.0
  {
    var alice := Employee(1, "alice@example.com", "Alice Johnson", "Marketing", 160.0, 50.0);
    var bob := Employee(2, "bob@example.com", "Bob Smith", "Design", 150.0, 40.0);
    var employees := [alice, bob];
    assert Names(employees) == ["Alice Johnson", "Bob Smith"];
    assert Departments(employees) == ["Marketing", "Design"];
    assert employees[..1] == [alice];
    assert [alice][..0] == [];
    assert TotalPayout([alice]) == 8000.0;
  }

  lemma SampleTotalLine()
    ensures TotalLine(14000.0) == "Total payout: $14000"
  {
    SampleAmounts();
  }

  lemma ThreeLines(s: seq<string>, a: string, b: string, c: string)
    requires |s| == 3 && s[0] == a && s[1] == b && s[2] == c
    ensures s == [a, b, c]
  {
  }

  /** The expected output of tests/test_report.py. */
  lemma SampleReport()
    ensures GenerateReport("payout", [
              Employee(1, "alice@example.com", "Alice Johnson", "Marketing", 160.0, 50.0),
              Employee(2, "bob@example.com", "Bob Smith", "Design", 150.0, 40.0)])
            == Ok("Employee: Alice Johnson    Department: Marketing    Payout: $8000\n"
                + "Employee: Bob Smith        Department: Design       Payout: $6000\n"
                + "Total payout: $14000")
    ensures GenerateReport("payout", []) == Ok("Total payout: $0")
  {
    var employees := [
      Employee(1, "alice@example.com", "Alice Johnson", "Marketing", 160.0, 50.0),
      Employee(2, "bob@example.com", "Bob Smith", "Design", 150.0, 40.0)];
    var line1 := "Employee: Alice Johnson    Department: Marketing    Payout: $8000";
    var line2 := "Employee: Bob Smith        Department: Design       Payout: $6000";
    var line3 := "Total payout: $14000";
    GenerateReportDispatch("payout", employees);
    GenerateReportDispatch("payout", []);
    SampleLines();
    assert [line1, line2, line3][1..] == [line2, line3];
    assert [line2, line3][1..] == [line3];
    assert Join([line1, line2, line3], '\n') == line1 + "\n" + (line2 + "\n" + line3);
    SampleText();
  }
}

=== FILE: text.dfy ===
/** The string operations the payroll tool relies on, as Python's `str` performs them:
    `strip()`, `split(sep)`, `sep.join(...)`, left-justified padding, `int(...)`,
    a decimal subset of `float(...)`, and the `:.0f` format. */
module Text {
  import opened Wrappers

  /** The characters Python's `str.isspace()` accepts, which `str.strip()` removes. */
  predicate IsWhitespace(c: char) {
    c == ' ' || ('\t' <= c <= '\r') || ('\U{1C}' <= c <= '\U{1F}')
    || c == '\U{85}' || c == '\U{A0}' || c == '\U{1680}'
    || ('\U{2000}' <= c <= '\U{200A}') || c == '\U{2028}' || c == '\U{2029}'
    || c == '\U{202F}' || c == '\U{205F}' || c == '\U{3000}'
  }

  /** Removes leading whitespace. */
  function TrimStart(s: string): (r: string)
    ensures |r| <= |s| && r == s[|s| - |r|..]
    ensures forall k :: 0 <= k < |s| - |r| ==> IsWhitespace(s[k])
    ensures |r| > 0 ==> !IsWhitespace(r[0])
    decreases |s|
  {
    if |s| > 0 && IsWhitespace(s[0]) then TrimStart(s[1..]) else s
  }

  /** Removes trailing whitespace. */
  function TrimEnd(s: string): (r: string)
    ensures |r| <= |s| && r == s[..|r|]
    ensures forall k :: |r| <= k < |s| ==> IsWhitespace(s[k])
    ensures |r| > 0 ==> !IsWhitespace(r[|r| - 1])
    decreases |s|
  {
    if |s| > 0 && IsWhitespace(s[|s| - 1]) then TrimEnd(s[..|s| - 1]) else s
  }

  /** `s.strip()`: the text between the leading and the trailing whitespace. */
  function Strip(s: string): string {
    TrimEnd(TrimStart(s))
  }

  /** The stripped text is the slice of `s` that starts after the leading whitespace. */
  lemma StripSlice(s: string)
    ensures |s| - |TrimStart(s)| + |Strip(s)| <= |s|
    ensures Strip(s) == s[|s| - |TrimStart(s)|..|s| - |TrimStart(s)| + |Strip(s)|]
  {
    var t := TrimStart(s);
    TrimmedSlice(s, t, Strip(s), |s| - |TrimStart(s)|, |s| - |TrimStart(s)| + |Strip(s)|);
  }

  /** What strip removes is whitespace: the leading run before the kept slice and the
      trailing run after it. */
  lemma StripRemovesWhitespace(s: string)
    ensures forall k :: 0 <= k < |s| - |TrimStart(s)| ==> IsWhitespace(s[k])
    ensures forall k :: |s| - |TrimStart(s)| + |Strip(s)| <= k < |s| ==> IsWhitespace(s[k])
  {
    var t := TrimStart(s);
    TrimmedSlice(s, t, TrimEnd(t), |s| - |t|, |s| - |t| + |TrimEnd(t)|);
  }

  /** What strip keeps neither starts nor ends with whitespace. */
  lemma StripEnds(s: string)
    requires |Strip(s)| > 0
    ensures !IsWhitespace(Strip(s)[0]) && !IsWhitespace(Strip(s)[|Strip(s)| - 1])
  {
    var t := TrimStart(s);
    var r := TrimEnd(t);
    assert r[0] == t[0];
  }

  /** A prefix `r` of a suffix `t` of `s`, with whitespace outside it. */
  lemma TrimmedSlice(s: string, t: string, r: string, i: int, j: int)
    requires |t| <= |s| && i == |s| - |t| && t == s[i..] && |r| <= |t| && r == t[..|r|]
    requires j == i + |r|
    requires forall k :: 0 <= k < i ==> IsWhitespace(s[k])
    requires forall k :: |r| <= k < |t| ==> IsWhitespace(t[k])
    ensures j <= |s| && r == s[i..j]
    ensures forall k :: j <= k < |s| ==> IsWhitespace(s[k])
  {
    assert s[i..][..|r|] == s[i..j];
    forall k | j <= k < |s|
      ensures IsWhitespace(s[k])
    {
      assert s[k] == t[k - i];
    }
  }

  /** A string made only of whitespace (the empty string included) strips to "". */
  lemma StripBlank(s: string)
    requires forall k :: 0 <= k < |s| ==> IsWhitespace(s[k])
    ensures Strip(s) == ""
  {
  }

  /** A string that neither starts nor ends with whitespace is left as it is. */
  lemma StripUnchanged(s: string)
    requires |s| > 0 ==> !IsWhitespace(s[0]) && !IsWhitespace(s[|s| - 1])
    ensures Strip(s) == s
  {
  }

  /** Number of occurrences of `d` in `s`. */
  function Occurrences(s: string, d: char): nat
    decreases |s|
  {
    if |s| == 0 then 0 else (if s[0] == d then 1 else 0) + Occurrences(s[1..], d)
  }

  /** `s.split(d)` for a one-character separator: the pieces between separators,
      one more piece than there are separators, none of them containing `d`. */
  function Split(s: string, d: char): (r: seq<string>)
    ensures |r| == Occurrences(s, d) + 1
    ensures forall k :: 0 <= k < |r| ==> d !in r[k]
    decreases |s|
  {
    if |s| == 0 then [""]
    else
      var rest := Split(s[1..], d);
      if s[0] == d then [""] + rest
      else [[s[0]] + rest[0]] + rest[1..]
  }

  /** The occurrences in a concatenation are those of its two parts. */
  lemma {:induction false} OccurrencesAppend(a: string, b: string, d: char)
    ensures Occurrences(a + b, d) == Occurrences(a, d) + Occurrences(b, d)
    decreases |a|
  {
    if |a| > 0 {
      assert (a + b)[1..] == a[1..] + b;
      OccurrencesAppend(a[1..], b, d);
    } else {
      assert a + b == b;
    }
  }

  /** A string without `d` has no occurrence of it. */
  lemma {:induction false} OccurrencesAbsent(a: string, d: char)
    requires d !in a
    ensures Occurrences(a, d) == 0
    decreases |a|
  {
    if |a| > 0 {
      assert a[0] != d;
      assert forall c :: c in a[1..] ==> c in a;
      OccurrencesAbsent(a[1..], d);
    }
  }

  /** `d.join(xs)`: the pieces with one separator between neighbours. */
  function Join(xs: seq<string>, d: char): string
    decreases |xs|
  {
    if |xs| == 0 then ""
    else if |xs| == 1 then xs[0]
    else xs[0] + [d] + Join(xs[1..], d)
  }

  /** Pieces free of `d` are joined with exactly one `d` fewer than there are pieces. */
  lemma {:induction false} JoinOccurrences(xs: seq<string>, d: char)
    requires |xs| > 0
    requires forall k :: 0 <= k < |xs| ==> d !in xs[k]
    ensures Occurrences(Join(xs, d), d) == |xs| - 1
    decreases |xs|
  {
    OccurrencesAbsent(xs[0], d);
    if |xs| > 1 {
      var rest := Join(xs[1..], d);
      assert forall k :: 1 <= k < |xs| ==> xs[1..][k - 1] == xs[k];
      JoinOccurrences(xs[1..], d);
      OccurrencesAppend(xs[0] + [d], rest, d);
      OccurrencesAppend(xs[0], [d], d);
      assert Occurrences([d], d) == 1;
    }
  }

  /** Joining the pieces of a split gives the original string back. */
  lemma {:induction false} JoinSplit(s: string, d: char)
    ensures Join(Split(s, d), d) == s
  {
    if |s| > 0 {
      JoinSplit(s[1..], d);
      var rest := Split(s[1..], d);
      if s[0] == d {
        assert Split(s, d) == [""] + rest;
        assert s == [d] + s[1..];
      } else {
        var r := Split(s, d);
        assert r == [[s[0]] + rest[0]] + rest[1..];
        if |rest| == 1 {
          assert Join(rest, d) == rest[0];
        } else {
          assert Join(rest, d) == rest[0] + [d] + Join(rest[1..], d);
          assert r[1..] == rest[1..];
        }
        assert s == [s[0]] + s[1..];
      }
    }
  }

  /** A string without the separator splits into itself alone. */
  lemma {:induction false} SplitNoSeparator(a: string, d: char)
    requires d !in a
    ensures Split(a, d) == [a]
  {
    if |a| > 0 {
      SplitNoSeparator(a[1..], d);
      assert a == [a[0]] + a[1..];
    }
  }

  /** A separator-free prefix followed by a separator is split off as one piece. */
  lemma {:induction false} SplitAfterPiece(a: string, d: char, t: string)
    requires d !in a
    ensures Split(a + [d] + t, d) == [a] + Split(t, d)
  {
    var s := a + [d] + t;
    if |a| == 0 {
      assert s[1..] == t;
    } else {
      assert s[1..] == a[1..] + [d] + t;
      SplitAfterPiece(a[1..], d, t);
      assert [a[0]] + a[1..] == a;
    }
  }

  /** Splitting a join of separator-free pieces gives the pieces back. */
  lemma {:induction false} SplitJoin(xs: seq<string>, d: char)
    requires |xs| > 0
    requires forall k :: 0 <= k < |xs| ==> d !in xs[k]
    ensures Split(Join(xs, d), d) == xs
  {
    if |xs| == 1 {
      SplitNoSeparator(xs[0], d);
    } else {
      SplitJoin(xs[1..], d);
      SplitAfterPiece(xs[0], d, Join(xs[1..], d));
      assert [xs[0]] + xs[1..] == xs;
    }
  }

  /** A string of `n` spaces. */
  function Spaces(n: nat): string {
    seq(n, _ => ' ')
  }

  /** `f"{s:<{w}}"`: `s` left-justified in a field of width `w`, never truncated. */
  function PadRight(s: string, w: nat): (r: string)
    ensures |r| == if |s| < w then w else |s|
    ensures r[..|s|] == s
    ensures forall k :: |s| <= k < |r| ==> r[k] == ' '
  {
    if |s| < w then s + Spaces(w - |s|) else s
  }

  /** The greatest length among a non-empty list of strings (`max(len(x) for x in xs)`). */
  function MaxLength(xs: seq<string>): (r: nat)
    requires |xs| > 0
    ensures forall k :: 0 <= k < |xs| ==> |xs[k]| <= r
    ensures exists k :: 0 <= k < |xs| && |xs[k]| == r
    decreases |xs|
  {
    if |xs| == 1 then |xs[0]|
    else
      var m := MaxLength(xs[1..]);
      assert forall k :: 1 <= k < |xs| ==> xs[k] == xs[1..][k - 1];
      if |xs[0]| < m then m else |xs[0]|
  }

  // ---- Decimal digits ----

  predicate IsDigit(c: char) {
    '0' <= c <= '9'
  }

  /** A non-empty string of ASCII decimal digits. */
  predicate IsDigits(s: string) {
    |s| > 0 && AllDigits(s)
  }

  /** A possibly empty string of ASCII decimal digits. */
  predicate AllDigits(s: string) {
    forall k :: 0 <= k < |s| ==> IsDigit(s[k])
  }

  function DigitChar(n: nat): (c: char)
    requires n < 10
    ensures IsDigit(c) && (c as int) - ('0' as int) == n
  {
    (('0' as int) + n) as char
  }

  /** The value of a run of decimal digits, most significant first; "" is 0. */
  function DigitsValue(s: string): nat
    requires AllDigits(s)
    decreases |s|
  {
    if |s| == 0 then 0
    else DigitsValue(s[..|s| - 1]) * 10 + ((s[|s| - 1] as int) - ('0' as int))
  }

  function Pow10(n: nat): (r: nat)
    ensures r > 0
  {
    if n == 0 then 1 else 10 * Pow10(n - 1)
  }

  /** `str(n)` for a natural number: its decimal digits, without leading zeros. */
  function NatToString(n: nat): (r: string)
    ensures IsDigits(r)
    ensures r[0] == '0' ==> n == 0 && |r| == 1
    decreases n
  {
    if n < 10 then [DigitChar(n)]
    else NatToString(n / 10) + [DigitChar(n % 10)]
  }

  /** The digits of `n` read back as `n`. */
  lemma {:induction false} NatToStringValue(n: nat)
    ensures DigitsValue(NatToString(n)) == n
    decreases n
  {
    var r := NatToString(n);
    if n >= 10 {
      var p := NatToString(n / 10);
      NatToStringValue(n / 10);
      assert r[..|r| - 1] == p;
    }
  }

  /** `str(i)` for any integer: the digits of its magnitude, after a minus sign exactly
      when it is negative. */
  function IntToString(i: int): (r: string)
    ensures i >= 0 ==> IsDigits(r)
    ensures i < 0 ==> |r| >= 2 && r[0] == '-' && IsDigits(r[1..])
    ensures DigitsValue(if i < 0 then r[1..] else r) == if i < 0 then -i else i
  {
    if i < 0 then
      var digits := NatToString(-i);
      NatToStringValue(-i);
      assert ("-" + digits)[1..] == digits;
      "-" + digits
    else
      NatToStringValue(i);
      NatToString(i)
  }

  /** The information separators U+001C to U+001F. `str.isspace()` accepts them, so
      `str.strip()` removes them, but `int()` and `float()` trim only the ASCII
      characters " \t\n\v\f\r" and non-ASCII whitespace. */
  predicate IsInformationSeparator(c: char) {
    '\U{1C}' <= c <= '\U{1F}'
  }

  /** Some character of `s` is an information separator. Such a character is neither
      trimmed by `int()` or `float()` nor a digit, sign or point, so the conversion
      fails; without one, they trim exactly what `str.strip()` trims. */
  predicate HasInformationSeparator(s: string) {
    exists k :: 0 <= k < |s| && IsInformationSeparator(s[k])
  }

  /** `int(s)`: surrounding whitespace, an optional sign, then ASCII digits. Only an
      explicit minus sign gives a negative value, and a text with an information
      separator is refused. */
  function ParseInt(s: string): (r: Option<int>)
    ensures r.Some? ==> !HasInformationSeparator(s)
    ensures r.Some? ==> |Strip(s)| > 0 && (r.value < 0 ==> Strip(s)[0] == '-')
  {
    var t := Strip(s);
    if HasInformationSeparator(s) then None
    else if |t| > 0 && (t[0] == '+' || t[0] == '-') then
      if IsDigits(t[1..]) then
        Some(if t[0] == '-' then -(DigitsValue(t[1..]) as int) else DigitsValue(t[1..]))
      else None
    else if IsDigits(t) then Some(DigitsValue(t))
    else None
  }

  /** `int(str(i)) == i`. */
  lemma ParseIntToString(i: int)
    ensures ParseInt(IntToString(i)) == Some(i)
  {
    if i < 0 {
      ParseIntToStringNegative(i);
    } else {
      ParseIntToStringNatural(i);
    }
  }

  /** `int(str(i)) == i` for a negative `i`. */
  lemma ParseIntToStringNegative(i: int)
    requires i < 0
    ensures ParseInt(IntToString(i)) == Some(i)
  {
    var n: nat := -i;
    assert IntToString(i) == "-" + NatToString(n);
    ParseIntNegative(n, IntToString(i));
  }

  /** `int(str(i)) == i` for a non-negative `i`. */
  lemma ParseIntToStringNatural(i: int)
    requires i >= 0
    ensures ParseInt(IntToString(i)) == Some(i)
  {
    var digits := NatToString(i);
    assert IntToString(i) == digits;
    NatToStringValue(i);
    ParseIntDigits(digits);
  }

  /** A run of digits reads as its value. */
  lemma ParseIntDigits(s: string)
    requires IsDigits(s)
    ensures ParseInt(s) == Some(DigitsValue(s))
  {
    StripDigits(s);
    NoSeparatorInDigits(s);
  }

  /** A minus sign followed by the digits of `n` reads as `-n`. */
  lemma ParseIntNegative(n: nat, t: string)
    requires t == "-" + NatToString(n)
    ensures ParseInt(t) == Some(-(n as int))
  {
    NatToStringValue(n);
    ParseIntSigned(NatToString(n), t);
  }

  /** A minus sign followed by digits reads as the negated value. */
  lemma ParseIntSigned(s: string, t: string)
    requires IsDigits(s) && t == "-" + s
    ensures ParseInt(t) == Some(-(DigitsValue(s) as int))
  {
    StripSigned(s);
    assert t[1..] == s;
    NoSeparatorInDigits(s);
    assert !HasInformationSeparator(t) by {
      assert forall k :: 1 <= k < |t| ==> t[k] == s[k - 1];
    }
  }

  /** Digits are not information separators. */
  lemma NoSeparatorInDigits(s: string)
    requires AllDigits(s)
    ensures !HasInformationSeparator(s)
  {
  }

  /** `int()` and `float()` refuse a number padded with an information separator. */
  lemma InformationSeparatorRefused()
    ensures ParseInt("\U{1C}5") == None
    ensures ParseReal("\U{1C}160") == None
  {
    assert IsInformationSeparator("\U{1C}5"[0]);
    assert IsInformationSeparator("\U{1C}160"[0]);
  }

  /** A run of digits has no surrounding whitespace. */
  lemma StripDigits(s: string)
    requires IsDigits(s)
    ensures Strip(s) == s
  {
    assert !IsWhitespace(s[0]) && !IsWhitespace(s[|s| - 1]);
    StripUnchanged(s);
  }

  /** Nor has a minus sign followed by digits. */
  lemma StripSigned(s: string)
    requires IsDigits(s)
    ensures Strip("-" + s) == "-" + s
  {
    var t := "-" + s;
    assert t[|t| - 1] == s[|s| - 1];
    assert !IsWhitespace(t[0]) && !IsWhitespace(t[|t| - 1]);
    StripUnchanged(t);
  }

  /** The decimal forms of `float(s)`: surrounding whitespace, an optional sign,
      then digits with at most one decimal point and at least one digit. The value is
      the exact decimal (no rounding to a double), only an explicit minus sign gives
      a negative one, and a text with an information separator is refused. */
  function ParseReal(s: string): (r: Option<real>)
    ensures r.Some? ==> !HasInformationSeparator(s)
    ensures r.Some? && r.value < 0.0 ==> |Strip(s)| > 0 && Strip(s)[0] == '-'
  {
    var t := Strip(s);
    if HasInformationSeparator(s) then None
    else if |t| > 0 && t[0] == '-' then
      match ParseDecimal(t[1..])
      case None => None
      case Some(m) => Some(-m)
    else if |t| > 0 && t[0] == '+' then ParseDecimal(t[1..])
    else ParseDecimal(t)
  }

  /** An unsigned decimal: digits, at most one point, at least one digit. Its value is
      never negative. */
  function ParseDecimal(body: string): (r: Option<real>)
    ensures r.Some? ==> r.value >= 0.0
  {
    var parts := Split(body, '.');
    if |parts| > 2 then None
    else
      var whole := parts[0];
      var fraction := if |parts| == 2 then parts[1] else "";
      if AllDigits(whole) && AllDigits(fraction) && |whole| + |fraction| > 0 then
        Some(DigitsValue(whole) as real + (DigitsValue(fraction) as real) / (Pow10(|fraction|) as real))
      else None
  }

  /** A run of digits without a point is a whole number. */
  lemma ParseDecimalDigits(s: string)
    requires IsDigits(s)
    ensures ParseDecimal(s) == Some(DigitsValue(s) as real)
  {
    assert '.' !in s;
    SplitNoSeparator(s, '.');
    assert DigitsValue("") == 0 && Pow10(0) == 1;
  }

  /** A plain run of digits reads as its exact value (in the model; a double rounds
      values above 2^53). */
  lemma ParseRealDigits(s: string)
    requires IsDigits(s)
    ensures ParseReal(s) == Some(DigitsValue(s) as real)
  {
    StripDigits(s);
    NoSeparatorInDigits(s);
    ParseDecimalDigits(s);
  }

  /** `float(str(n))` gives back `n` exactly (in the model; a double rounds values
      above 2^53). */
  lemma ParseRealOfNat(n: nat)
    ensures ParseReal(NatToString(n)) == Some(n as real)
  {
    ParseRealDigits(NatToString(n));
    NatToStringValue(n);
  }

  /** The value of a real number rounded to the nearest integer, ties to the even one,
      as Python's `format(x, '.0f')` rounds. */
  function RoundHalfEven(x: real): (r: int)
    ensures -0.5 <= (r as real) - x <= 0.5
    ensures (r as real) - x == 0.5 || x - (r as real) == 0.5 ==> r % 2 == 0
  {
    var f := x.Floor;
    var fraction := x - f as real;
    if fraction < 0.5 then f
    else if fraction > 0.5 then f + 1
    else if f % 2 == 0 then f
    else f + 1
  }

  /** `f"{x:.0f}"`: the value rounded half to even, in decimal, after a minus sign
      exactly when `x` is negative (so that -0.4 prints as "-0"). */
  function FormatFixed0(x: real): (r: string)
    ensures |r| > 0
    ensures forall k :: 0 <= k < |r| ==> r[k] == '-' || IsDigit(r[k])
  {
    var n := RoundHalfEven(x);
    if x < 0.0 then "-" + NatToString(if n < 0 then -n else n) else NatToString(n)
  }

  /** The printed amount is the rounded value: its digits read back as the magnitude,
      after a minus sign exactly when `x` is negative. */
  lemma FormatValue(x: real)
    ensures var r := FormatFixed0(x);
            && (x >= 0.0 ==> IsDigits(r) && DigitsValue(r) == RoundHalfEven(x))
            && (x < 0.0 ==> |r| >= 2 && r[0] == '-' && IsDigits(r[1..])
                            && DigitsValue(r[1..]) == -RoundHalfEven(x))
  {
    var n := RoundHalfEven(x);
    if x < 0.0 {
      var digits := NatToString(-n);
      NatToStringValue(-n);
      assert ("-" + digits)[1..] == digits;
    } else {
      NatToStringValue(n);
    }
  }

  /** A whole number prints as its integer digits. */
  lemma FormatWhole(n: int)
    ensures FormatFixed0(n as real) == IntToString(n)
  {
    assert (n as real).Floor == n;
    assert RoundHalfEven(n as real) == n;
  }
}

=== FILE: wrappers.dfy ===
/** Failure-compatible Option and Result, and a first-failure traversal of a sequence. */
module Wrappers {

  datatype Option<+T> = None | Some(value: T)

  datatype Result<+T, +E> = Ok(value: T) | Err(error: E) {
    predicate IsFailure() {
      Err?
    }

    function PropagateFailure<U>(): Result<U, E>
      requires Err?
    {
      Err(error)
    }

    function Extract(): T
      requires Ok?
    {
      value
    }
  }

  /** Applies `f` to the elements of `xs` in order and stops at the first failure:
      the shape of a Python loop that appends to a list and raises on a bad element. */
  function Traverse<A, B, E>(f: A -> Result<B, E>, xs: seq<A>): Result<seq<B>, E>
    decreases |xs|
  {
    if |xs| == 0 then Ok([])
    else
      match Traverse(f, xs[..|xs| - 1])
      case Err(e) => Err(e)
      case Ok(ys) =>
        match f(xs[|xs| - 1])
        case Err(e) => Err(e)
        case Ok(y) => Ok(ys + [y])
  }

  /** A successful traversal has one result per element, each the element's own result. */
  lemma {:induction false} TraverseOk<A, B, E>(f: A -> Result<B, E>, xs: seq<A>, ys: seq<B>)
    requires Traverse(f, xs) == Ok(ys)
    ensures |ys| == |xs|
    ensures forall k :: 0 <= k < |xs| ==> f(xs[k]) == Ok(ys[k])
  {
    if |xs| > 0 {
      var n := |xs| - 1;
      var prefix := Traverse(f, xs[..n]);
      assert prefix.Ok?;
      TraverseOk(f, xs[..n], prefix.value);
      assert ys == prefix.value + [f(xs[n]).value];
      forall k | 0 <= k < |xs|
        ensures f(xs[k]) == Ok(ys[k])
      {
        if k < n {
          assert xs[..n][k] == xs[k];
        }
      }
    }
  }

  /** When every element succeeds, so does the traversal, with the results in order. */
  lemma {:induction false} TraverseAllOk<A, B, E>(f: A -> Result<B, E>, xs: seq<A>)
    requires forall k :: 0 <= k < |xs| ==> f(xs[k]).Ok?
    ensures Traverse(f, xs).Ok?
    ensures Traverse(f, xs).value == seq(|xs|, k requires 0 <= k < |xs| => f(xs[k]).value)
  {
    if |xs| > 0 {
      var n := |xs| - 1;
      assert forall k :: 0 <= k < n ==> xs[..n][k] == xs[k];
      TraverseAllOk(f, xs[..n]);
      assert f(xs[n]).Ok?;
    }
  }

  /** The traversal fails with the error of the first failing element. */
  lemma {:induction false} TraverseFirstErr<A, B, E>(f: A -> Result<B, E>, xs: seq<A>, k: nat)
    requires k < |xs| && f(xs[k]).Err?
    requires forall j :: 0 <= j < k ==> f(xs[j]).Ok?
    ensures Traverse(f, xs) == Err(f(xs[k]).error)
  {
    var n := |xs| - 1;
    assert forall j :: 0 <= j < n ==> xs[..n][j] == xs[j];
    if k == n {
      TraverseAllOk(f, xs[..n]);
    } else {
      TraverseFirstErr(f, xs[..n], k);
    }
  }

  /** A prefix that already fails makes the whole traversal fail the same way. */
  lemma {:induction false} TraversePrefixErr<A, B, E>(f: A -> Result<B, E>, xs: seq<A>, n: nat)
    requires n <= |xs| && Traverse(f, xs[..n]).Err?
    ensures Traverse(f, xs) == Traverse(f, xs[..n])
    decreases |xs| - n
  {
    if n < |xs| {
      assert xs[..n + 1][..n] == xs[..n];
      TraversePrefixErr(f, xs, n + 1);
    } else {
      assert xs[..n] == xs;
    }
  }

  /** A traversal in which every element succeeds with the given result returns those
      results, in order. */
  lemma {:induction false} TraverseEach<A, B, E>(f: A -> Result<B, E>, xs: seq<A>, ys: seq<B>)
    requires |ys| == |xs|
    requires forall k :: 0 <= k < |xs| ==> f(xs[k]) == Ok(ys[k])
    ensures Traverse(f, xs) == Ok(ys)
  {
    if |xs| > 0 {
      var n := |xs| - 1;
      assert forall k :: 0 <= k < n ==> xs[..n][k] == xs[k] && ys[..n][k] == ys[k];
      TraverseEach(f, xs[..n], ys[..n]);
      assert ys[..n] + [ys[n]] == ys;
    }
  }

  /** The position of the first element that fails, when one does. */
  function FirstErr<A, B, E>(f: A -> Result<B, E>, xs: seq<A>): (k: nat)
    requires exists k :: 0 <= k < |xs| && f(xs[k]).Err?
    ensures k < |xs| && f(xs[k]).Err?
    ensures forall j :: 0 <= j < k ==> f(xs[j]).Ok?
    decreases |xs|
  {
    if f(xs[0]).Err? then 0
    else
      assert forall j :: 1 <= j < |xs| ==> xs[1..][j - 1] == xs[j];
      FirstErr(f, xs[1..]) + 1
  }

  /** A successful prefix extended by a successful element. */
  lemma TraverseStepOk<A, B, E>(f: A -> Result<B, E>, xs: seq<A>, i: nat, ys: seq<B>)
    requires i < |xs| && Traverse(f, xs[..i]) == Ok(ys) && f(xs[i]).Ok?
    ensures Traverse(f, xs[..i + 1]) == Ok(ys + [f(xs[i]).value])
  {
    assert xs[..i + 1][..i] == xs[..i];
  }

  /** A successful prefix followed by a failing element: the whole traversal fails there. */
  lemma TraverseStepErr<A, B, E>(f: A -> Result<B, E>, xs: seq<A>, i: nat)
    requires i < |xs| && Traverse(f, xs[..i]).Ok? && f(xs[i]).Err?
    ensures Traverse(f, xs) == Err(f(xs[i]).error)
  {
    assert xs[..i + 1][..i] == xs[..i];
    TraversePrefixErr(f, xs, i + 1);
  }

  /** `[f(x) for x in xs]`. */
  function MapSeq<A, B>(f: A -> B, xs: seq<A>): (r: seq<B>)
    ensures |r| == |xs|
    decreases |xs|
  {
    if |xs| == 0 then [] else MapSeq(f, xs[..|xs| - 1]) + [f(xs[|xs| - 1])]
  }

  /** Element `k` of the mapped list is `f` of element `k`. */
  lemma {:induction false} MapSeqAt<A, B>(f: A -> B, xs: seq<A>, k: nat)
    requires k < |xs|
    ensures MapSeq(f, xs)[k] == f(xs[k])
    decreases |xs|
  {
    var n := |xs| - 1;
    if k < n {
      MapSeqAt(f, xs[..n], k);
      assert xs[..n][k] == xs[k];
    }
  }

  /** Mapping one more element appends its image. */
  lemma MapSeqStep<A, B>(f: A -> B, xs: seq<A>, i: nat)
    requires i < |xs|
    ensures MapSeq(f, xs[..i + 1]) == MapSeq(f, xs[..i]) + [f(xs[i])]
  {
    assert xs[..i + 1][..i] == xs[..i];
  }
}
